=== FILE: README.md ===
# Johnson's elementary circuits with a length cut-off, in Dafny

This project models the `Cycles` class of `johnson.py` (the GA collection of
classical graph algorithms). The class enumerates the elementary circuits of a
directed graph with Johnson's algorithm (D. B. Johnson, "Finding all the
elementary circuits of a directed graph", SIAM J. Comput. 1975). It also stops
exploring any path that reaches `maxlength` vertices. Every closed path it finds
goes to a writer: either a `MemoryWriter` or a `FilteredMemoryWriter(l)`.

The model has five modules:

- `Wrappers` (`wrappers.dfy`): `Option`.
- `Seqs` (`seqs.dfy`): the Python list operations the search relies on, written as sequence functions:
  - `list.count` (`Count`);
  - `list.remove` (`RemoveFirst`);
  - duplicate-freedom (`NoDup`);
  - the positions a `for` loop visits when its body removes from the list it walks (`EvenPositions`, `OddPositions`).
- `Writers` (`writers.dfy`): the two in-memory sinks.
  - They are one class, `Writer`. Its constant `target` is `None` for a `MemoryWriter` and `Some(l)` for a `FilteredMemoryWriter(l)`.
  - A ghost log `calls` records every path passed to `Write`.
  - The kept list `cycles` is always `Kept(calls, target)`.
- `GraphAdapter` (`graph.dfy`): the igraph calls the search makes, as oracle functions of an `Adapter`:
  - `g.vcount()`;
  - the edge relation;
  - `g.subgraph(vs)` as adjacency lists over local indices;
  - `components().membership`.

  `WellFormed` states what the search relies on:
  - answers have the right shapes;
  - the subgraph induced by an ascending vertex list has exactly the edges of `g` between those vertices;
  - equal component labels mean mutual reachability.
- `Johnson` (`johnson.dfy`): the class `Cycles`. Its fields `B`, `blocked`, `Ak` (`ak`), `sids`, `stack` and `s` are updated in place by:
  - `Unblock` (`unblock`);
  - `Cycle` (`cycle`), split into `Push` (push and block), `Explore` (what follows until the pop), `Successors` (the loop over the successors), `Step` (one turn of it), `Visit` (one successor) and `Close` with `Settle` (unblock or register);
  - `ResetBlocking` and `Restart` (the body of the `cycles()` loop);
  - `Run` (`cycles()`).

  `get_least_vertex_scc_vertices` is the method `LeastSccVertices`, specified by the function `Members`.

What is proved:

- `unblock(u)` follows the Python loop exactly, including its habit of removing from `B[u]` while iterating over it. The iterator skips an element after every removal, so:
  - the entries at positions 0, 2, 4, … are visited, removed and unblocked in turn;
  - the entries at positions 1, 3, 5, … stay in the list.

  `UnblockDone` states the whole effect:
  - `u` ends unblocked and no flag is raised;
  - every released vertex's list becomes the odd positions of its old list, and every other list is untouched;
  - the even entries of every released list end unblocked;
  - a vertex is released only when a chain of such even entries leads to it from `u` (`ReleaseOrder`: the releases in an order where each one after `u` is an even entry of the old list of an earlier one).

  `UnblockSkipsOddEntry` shows this on a concrete state. `UnblockNeedsChain` shows that two blocked vertices listed in each other's lists are not released when no chain from `u` reaches them.
- `cycle(u)` restores the stack and keeps the bookkeeping (`Valid`). Besides its result it has two ghost results: `cut`, and the final flags, lists and writes. Its `CycleRuns` contract fixes the whole run, nested calls included. There is a chain of states, one more than `u` has successors:
  - it starts from the old state with `u` blocked;
  - each turn takes it from one state to the next as `VisitRuns` says, with a hit and a cut:
    - an edge back to the root writes the stack and is a hit;
    - any other successor at the depth limit changes nothing and is a hit and a cut;
    - below the limit, a blocked successor changes nothing and is neither;
    - an unblocked successor is a nested `cycle(v)` run, again as `CycleRuns` says, whose result and cut are the hit and the cut;
  - the result is whether some turn was a hit, and `cut` whether some turn was a cut, so `cut` means some branch below `u` stopped at the depth limit;
  - after the last turn `u` is unblocked (found) or registered with its successors (not found), with no further write (`Settles`).

  `TwoCycleRound`, `SelfLoopRound` and `BlockedSuccessor` apply this to small graphs and fix the result, the cut and the final state.

  Its `CycleDone` contract summarises the same run:
  - every path it writes is the image of a closed walk of `Ak` through the root, no longer than `maxlength`;
  - the result is true exactly when something was written or a branch was cut;
  - an edge back to the root means "found", and the stack (ending in `u`) was written;
  - found means `u` ends unblocked;
  - not found means `u` stays blocked, nothing was written, no flag was lowered, lists only grew, and `u` sits exactly once in the list of each successor;
  - at the depth limit, found means `u` has a successor, cut means one of them is not the root, and the stack was written once per edge back to the root.

  Each successor is handled as `Visit`'s contracts `VisitRuns` (above) and `VisitDone` say:
  - an edge back to the root writes the stack once, changes nothing else, and is a hit but not a cut;
  - another successor at the depth limit changes nothing and is a hit and a cut;
  - below the limit, a blocked successor is skipped, changes nothing, and is neither;
  - an unblocked one has the effect `CycleDone` gives `cycle(v)`, whose result and cut are the hit and the cut.
- `get_least_vertex_scc_vertices` returns `None` exactly when every component is a single vertex. Otherwise it returns the ascending global ids of the first non-trivial component:
  - there are at least two of them;
  - they lie within `[s, s + len(membership))`;
  - they are exactly the local vertices with that label;
  - the first of them is the first local vertex in a non-trivial component.
- One round of `cycles()` (`Restart`) sets `sids` to the component and `Ak` to the subgraph it induces. It resets the flags and lists of the component's vertices (`ResetFlags`, `ResetLists`). It then runs `cycle(0)` on the empty stack from that reset state, as `CycleRuns` traces it and with the effect `CycleDone` gives (`RoundDone`).
- `cycles()` writes only closed walks of `g`. Each one:
  - has length at most `maxlength` (or is a single vertex);
  - starts at its least vertex.

  The roots never decrease and `s` only grows. When the loop stops, no two vertices of the subgraph induced by `{s, …, n-1}` lie on a common cycle.
- `MemoryWriter.write` keeps every path, in call order. `FilteredMemoryWriter(l).write` keeps exactly the paths of length `l`.

Two behaviours of the code that a reader who knows Johnson's published algorithm might not expect, both modelled as the code has them:

- `unblock` does not empty `B[u]`, as Johnson's UNBLOCK does; it keeps the odd-position entries, as described above.
- A single vertex with a self-loop is never searched, because `get_least_vertex_scc_vertices` only accepts components with more than one member. So a lone self-loop is never reported.

## Model

| member | source | states |
|---|---|---|
| Writers.Writer.Memory | johnson.py:37-39 | a new `MemoryWriter` has an empty `cycles` list and keeps everything |
| Writers.Writer.Filtered | johnson.py:44-47 | a new `FilteredMemoryWriter(l)` has an empty `cycles` list and filters on length `l` |
| Writers.Writer.Write | johnson.py:41-51 | the path joins the call log; `cycles` gains a copy of it exactly when the sink accepts it, and is otherwise unchanged |
| Writers.Kept | johnson.py:41-51 | what a sink holds after a sequence of writes is no longer than the sequence |
| Writers.KeptAppend | johnson.py:41-51 | two batches of writes in turn keep the first batch's paths followed by the second's |
| Writers.MemoryWriterKeepsAll | johnson.py:37-42 | a `MemoryWriter` holds every path written, in call order |
| Writers.FilteredWriterKeepsLength | johnson.py:44-51 | a `FilteredMemoryWriter(l)` holds a path exactly when it was written and has length `l` |
| Seqs.Count | johnson.py:123 | `list.count` is at most the length, and zero exactly when the value is absent |
| Seqs.CountInNoDup | johnson.py:113-115 | in a list without duplicates a present value occurs exactly once |
| Seqs.CountOfRepeated | johnson.py:123 | a value at two positions has a count of at least two |
| Seqs.RemoveFirst | johnson.py:85 | `list.remove(x)` drops one occurrence of `x` and nothing else |
| Seqs.RemoveFirstAt | johnson.py:85 | removing a value whose first occurrence is at position `k` cuts out exactly position `k` |
| Seqs.EvenPositions | johnson.py:84-85 | the entries visited by the loop that removes as it goes: half the list, rounded up |
| Seqs.OddPositions | johnson.py:84-85 | the entries that loop leaves: half the list, rounded down |
| Seqs.PositionsAt | johnson.py:84-85 | visited entry `k` is list position `2k`, kept entry `k` is position `2k + 1`, and both come from the list |
| Seqs.EvenOddSplit | johnson.py:84-85 | every entry is either visited or kept, never both |
| Seqs.NoDupPairs | johnson.py:113-115 | no duplicates means different positions hold different values |
| GraphAdapter.Range | johnson.py:130 | `range(lo, hi)` holds `lo + j` at position `j`, `hi - lo` entries |
| GraphAdapter.SubgraphBounded | johnson.py:136 | the subgraph induced by `vs` has one successor list per vertex and names only local indices |
| GraphAdapter.ClosedWalkImageVertices | johnson.py:100-102 | a written path starts at `sids[0]` and holds only vertices of `sids` |
| GraphAdapter.ClosedWalkInGraph | johnson.py:136-141 | a closed walk through local vertex 0 of the subgraph induced by ascending `cids` is a closed walk of `g` starting at `cids[0]` |
| Johnson.Members | johnson.py:124 | the comprehension yields an ascending list with one entry per vertex labelled `comp`, exactly the `j + s` with `m[j] == comp` |
| Johnson.MembersHas | johnson.py:124 | `j + s` is a member exactly when local vertex `j` carries the label |
| Johnson.FirstMember | johnson.py:122-124 | the component of the first local vertex in a non-trivial component has at least two members, starts at that vertex, and holds exactly the vertices sharing its label |
| Johnson.LeastSccVertices | johnson.py:119-124 | `None` exactly when every label occurs once; otherwise the ascending global ids (at least two, all within `[s, s + n)`) of the component of the first vertex whose label repeats |
| Johnson.UnblockIn | johnson.py:78-87 | `unblock(u)` has the effect `UnblockDone` describes (odd-position entries stay in each released list, even ones end unblocked, and every release is reached from `u` by a chain of even entries) and keeps the bookkeeping |
| Johnson.UnblockStep | johnson.py:84-87 | one pass of the loop: the reached entry is removed and, if blocked, unblocked, and the loop state advances by one position |
| Johnson.UnblockSkipsOddEntry | johnson.py:84-85 | with `B[1] == [2, 3]`, `unblock(1)` unblocks 2 but leaves 3 blocked and in `B[1]` |
| Johnson.UnblockNeedsChain | johnson.py:83-87 | with `B[1] == []` and 2 and 3 blocked in each other's lists, `unblock(1)` leaves 2 and 3 blocked and their lists as they were |
| Johnson.LiveListStart | johnson.py:84 | before any removal the iterator's list is the whole list |
| Johnson.LiveListRemove | johnson.py:84-85 | the entry the iterator reaches after `i` removals is even entry `i`; removing it gives the state after `i + 1` and keeps the list free of duplicates |
| Johnson.LiveListCut | johnson.py:84-85 | cutting out position `i` of the iterator's list after `i` removals is the state after `i + 1` |
| Johnson.LiveListEnd | johnson.py:84-85 | when the iterator runs off the end, exactly the odd-position entries remain and every even one was reached |
| Johnson.LoopStart | johnson.py:83 | `blocked[u] = False` starts the loop in its invariant |
| Johnson.LoopNext | johnson.py:84-86 | the reached entry has a flag, its removal keeps the bookkeeping, and a cascade from it has fewer blocked vertices to work on |
| Johnson.LoopSkip | johnson.py:84-86 | an unblocked entry is only removed, and the loop invariant advances |
| Johnson.LoopCascade | johnson.py:84-87 | a blocked entry is removed and unblocked recursively, and the loop invariant advances |
| Johnson.LoopEnd | johnson.py:84-87 | when the loop ends, the call has the effect `UnblockDone` describes |
| Johnson.CascadeKeepsLists | johnson.py:86-87 | a nested `unblock` keeps the outer call's description of every list |
| Johnson.CascadeKeepsEvens | johnson.py:86-87 | a nested `unblock` keeps the even entries of released lists unblocked |
| Johnson.OrderCascade | johnson.py:84-87 | a nested `unblock(v)`, for `v` an even entry of `u`'s list, appends its releases to the outer order: `v` hangs off `u`, and the rest hang off lists the outer call had not cut |
| Johnson.CascadeStep | johnson.py:86-87 | the whole effect of a nested `unblock` on the outer loop's state |
| Johnson.UnblockFinish | johnson.py:84-87 | at the end of the loop, `u`'s own list and its even entries join the description of the others |
| Johnson.FinishLists | johnson.py:84-85 | `u`'s own list, cut to its odd positions, matches the released-list description |
| Johnson.FinishEvens | johnson.py:84-87 | `u`'s even entries, all unblocked, join those of the other released lists |
| Johnson.GlobalIds | johnson.py:112 | `sids[v]` for every successor `v`, position by position |
| Johnson.RegisterOne | johnson.py:113-115 | after `if not nu in B[nv]: B[nv].append(nu)`, `nu` is in `B[nv]` and no key changes |
| Johnson.RegisterAll | johnson.py:111-115 | the registration loop keeps the keys |
| Johnson.RegisterAllPointwise | johnson.py:111-115 | registration appends `x` once to the list of each successor's global id that lacked it and leaves every other list alone |
| Johnson.RegisterAllGrows | johnson.py:111-115 | registration only appends to lists and leaves `x` in the list of every successor |
| Johnson.RegisterAllKeeps | johnson.py:113-115 | registering a vertex that has a flag keeps the lists free of duplicates and naming only flagged vertices |
| Johnson.RegisterIn | johnson.py:111-115 | the registration loop computes `RegisterAll` over the successors' global ids |
| Johnson.RegisteredOnce | johnson.py:109-115 | when `cycle(u)` returns false, `sids[u]` is still blocked and occurs exactly once in `B[sids[v]]` for each successor `v` |
| Johnson.PushedPath | johnson.py:94-96 | pushing `sids[u]` extends a walk from the root whose image is the stack, within the length bound |
| Johnson.LoopRunsMore | johnson.py:98-108 | a turn on the next successor, from the state the turns so far ended in, extends the chain of turns; the loop has found (or cut) something exactly when it had before or this turn did |
| Johnson.CycleRunsFrom | johnson.py:89-117 | a push that blocks `u`, a full chain of turns over `u`'s successors and the unblock or registration that follows make up one run of `cycle(u)` |
| Johnson.UnblockSpares | johnson.py:80-87 | `unblock(u)` leaves an unblocked vertex other than `u` unblocked, with its list unchanged |
| Johnson.RegisterFresh | johnson.py:113-115 | registering `x` with the one successor `t`, whose list is empty, makes that list `[x]` |
| Johnson.TwoCycleRound | johnson.py:89-117 | on the 2-cycle with global ids 3 and 4 and nothing blocked, `cycle(0)` on the empty stack returns true, cuts nothing, and writes exactly `[3, 4]` |
| Johnson.TwoCycleDescent | johnson.py:98-102 | in that round, `cycle(1)` on the stack `[3]` returns true, cuts nothing, and writes exactly `[3, 4]` |
| Johnson.SelfLoopRound | johnson.py:89-117 | a one-vertex component with a self-loop (global id 7): `cycle(0)` returns true, cuts nothing and writes exactly `[7]`, and vertex 100, outside the component, keeps its lowered flag and its empty list |
| Johnson.BlockedSuccessor | johnson.py:98-115 | on the stack `[7, 8]`, `cycle(2)` (global id 9), whose only successor 8 is blocked, returns false, cuts nothing and writes nothing; 9 stays blocked and becomes the whole list of 8 |
| Johnson.ScanStart | johnson.py:93 | before any successor, `f` is false, nothing was cut and nothing has changed |
| Johnson.VisitWrite | johnson.py:100-102 | `v == 0`: the stack is written once, it is the image of a closed walk through the root within the length bound, nothing else changes, and it is a hit but not a cut |
| Johnson.VisitPass | johnson.py:103-104 | `v != 0` below the limit whose global id is blocked: nothing changes and it is neither a hit nor a cut |
| Johnson.VisitCut | johnson.py:107-108 | `v != 0` at the depth limit: nothing changes and it is a hit and a cut |
| Johnson.VisitDescend | johnson.py:103-106 | `v != 0` below the limit and unblocked: the visit has the effect `CycleDone` gives `cycle(v)`, and its result and cut are the hit and the cut |
| Johnson.ScanVisit | johnson.py:98-108 | the loop's state after one more successor, combining the state so far with that successor's effect: `f` stays "written or cut", and once an edge back to the root is seen, the stack is among the writes |
| Johnson.ScanAtLimit | johnson.py:98-108 | at the depth limit, one more successor keeps the loop's counts: every successor seen is a hit, those other than the root are cuts, and each root edge wrote the stack once |
| Johnson.Finish | johnson.py:109-116 | after the loop and the unblock or registration, `cycle(u)` has the effect `CycleDone` describes |
| Johnson.FinishIdle | johnson.py:111-115 | nothing found: no flag was lowered since the push, lists only grew, and `sids[u]` is in each successor's list |
| Johnson.RootWrites | johnson.py:136-141 | every path `cycle(0)` writes on the component `cids` is a closed walk of `g` within the length bound, rooted at `cids[0]`, its least vertex |
| Johnson.RunLogStep | johnson.py:134-142 | a round rooted at `root >= s` extends the log, keeping roots non-decreasing and below `root + 1` |
| Johnson.NothingLeft | johnson.py:121-144 | when the scan finds no non-trivial component, no two vertices of the subgraph induced by `{s, …, n-1}` are mutually reachable |
| Johnson.Cycles.constructor | johnson.py:55-76 | `Cycles(g, writer, maxlength)` starts with empty maps and lists and `s == 0` |
| Johnson.Cycles.Unblock | johnson.py:78-87 | `unblock(u)` updates `blocked` and `B` as `UnblockDone` describes and keeps the bookkeeping |
| Johnson.Cycles.Register | johnson.py:111-115 | the registration loop updates `B` to `RegisterAll` and keeps the bookkeeping |
| Johnson.Cycles.Cycle | johnson.py:89-117 | `cycle(u)` restores the stack, keeps the bookkeeping and the writer's invariant, and runs exactly as `CycleRuns` traces it: push, one step per successor (nested calls included), then unblock or register. Its effect is the one `CycleDone` describes: found exactly when something was written or a branch was cut at the limit, an edge back to the root writes the stack and means found, found unblocks `u`, not found registers `u` and changes nothing else |
| Johnson.Cycles.Push | johnson.py:94-96 | the stack gains `sids[u]`, `sids[u]` is blocked, and the stack stays the image of a walk from the root |
| Johnson.Cycles.Explore | johnson.py:97-115 | after the push, the successor loop and the unblock or registration run as `CycleRuns` traces them from the state before the push, with the effect `CycleDone` describes |
| Johnson.Cycles.Close | johnson.py:109-115 | after the loop, unblocking or registering `u` completes the run: the chain of turn states and the unblock or registration together are the `CycleRuns` trace, and the effect is the one `CycleDone` describes |
| Johnson.Cycles.Successors | johnson.py:98-108 | the loop over `u`'s successors leaves the stack as it was and ends in the state `Scan` describes over all of them: `f` true exactly when something was written or cut, and the stack written if any successor is the root. It also returns the chain of states it went through, one turn per successor as `VisitRuns` says, from the state on entry to the state on exit, with `f` whether some turn was a hit and the cut whether some turn was a cut |
| Johnson.Cycles.Step | johnson.py:99-108 | one turn of that loop takes the state `Scan` describes after `j` successors to the state after `j + 1`, and extends the chain of states by the turn's `VisitRuns` step |
| Johnson.Cycles.Settle | johnson.py:109-115 | found: `unblock(nu)`; not found: `B` becomes the registration of `nu` with every successor and no flag changes; no write either way (`Settles`) |
| Johnson.Cycles.Visit | johnson.py:99-108 | one successor, as `VisitRuns` and `VisitDone` describe: the root writes the stack once and is a hit but no cut; at the limit any other is a hit and a cut with no effect; below it a blocked one has no effect and is neither, an unblocked one runs `cycle(v)` as `CycleRuns` traces it |
| Johnson.ResetFlagsMeaning | johnson.py:138-140 | setting `blocked[v] = False` for each `v` of `cids` gives them all a lowered flag and keeps every other flag |
| Johnson.ResetListsMeaning | johnson.py:138-140 | setting `B[v] = []` for each `v` of `cids` gives them all an empty list and keeps every other list |
| Johnson.Cycles.ResetBlocking | johnson.py:138-140 | the flags and lists become `ResetFlags` and `ResetLists` of the old ones: every `i` in `cids` gets flag false and an empty list, the other entries are unchanged, and the bookkeeping holds |
| Johnson.Cycles.Restart | johnson.py:133-142 | one round: `sids` is `cids` and `Ak` the subgraph they induce; from the reset flags and lists, `cycle(0)` on the empty stack runs as `CycleRuns` traces it, with the effect `CycleDone` describes; its writes are reported paths rooted at `cids[0]`; and `s` becomes `cids[0] + 1` |
| Johnson.Cycles.Run | johnson.py:126-144 | `cycles()` only appends reported paths with non-decreasing roots, `s` only grows, and it stops only when no two remaining vertices lie on a common cycle |

## Left out

- `FileWriter` (johnson.py:27-35) is not modelled: it only formats paths to a file.
- The `__main__` driver, `Graph.Full` and the logging calls (johnson.py:76, 137, 146-161) are not modelled.
- igraph is not modelled. `g.vcount()`, `g.subgraph`, `Ak.successors` and `components().membership` are the oracle functions of an `Adapter`, and `WellFormed` states what the search relies on them to return. No strongly-connected-component computation is verified.
- Johnson.Cycles.Run: does not state completeness (that every elementary circuit of length at most `maxlength` is written exactly once). The skipping removal loop in `unblock` and the depth cut-off make it unclear that this holds for this code.
- Johnson.Cycles.Run: does not state that the written paths are elementary (no vertex repeated). Johnson's argument for that rests on every vertex on the stack staying blocked. Here `unblock` leaves the odd-position entries in each released list, and such a stale entry could later unblock a vertex that is still on the stack. So the model proves closed walks, not elementary circuits.
- Johnson.Cycles.Cycle: a nested call is guarded by `v != 0`, `len(stack) < maxlength` and `not blocked[nv]`. `Cycle` requires the first two, through `CallableAt`, but not the third. The third is tested in `Visit`, whose contract `VisitDone` says a blocked successor changes nothing and an unblocked one has the effect of `cycle(v)`.
- `unblock`'s loop and the registration loop run on the values of `blocked` and `B` (`UnblockIn`, `RegisterIn`), and the results are stored back into the fields. The maps are values, so nothing else can observe the intermediate states.
- `get_least_vertex_scc_vertices` takes `s` as a parameter instead of reading `self.s`. `cycles()` passes the field.
- Python's recursion limit, which could end a deep `unblock` or `cycle` with an exception, is not modelled.
- `Cycles.Run` and `Cycles.Cycle` require `stack == []` at the root call. The constructor establishes this and every call restores it.

=== FILE: graph.dfy ===
/**
  What the cycle search needs from the graph library: induced subgraphs with
  local vertex indices, successor lists, and the strongly-connected-component
  membership array. The library itself is not modelled; its answers are the
  oracle functions of an `Adapter`, and `WellFormed` states what the search
  relies on them to be.
*/
module GraphAdapter {
  import opened Seqs

  /** `p` is a walk in the adjacency lists `adj`: every step follows an edge. */
  ghost predicate IsWalk(adj: seq<seq<nat>>, p: seq<nat>) {
    && |p| >= 1
    && (forall i :: 0 <= i < |p| ==> p[i] < |adj|)
    && (forall i :: 0 <= i < |p| - 1 ==> p[i + 1] in adj[p[i]])
  }

  /** There is a walk in `adj` from `a` to `b`. */
  ghost predicate Reaches(adj: seq<seq<nat>>, a: nat, b: nat) {
    exists p :: IsWalk(adj, p) && p[0] == a && p[|p| - 1] == b
  }

  /** `c` is the list of global ids of the local vertices `p`. */
  ghost predicate IsImage(sids: seq<nat>, p: seq<nat>, c: seq<nat>) {
    && |c| == |p|
    && forall i :: 0 <= i < |p| ==> p[i] < |sids| && c[i] == sids[p[i]]
  }

  /**
    `c` is a closed walk through local vertex 0 of `ak`, written with global ids:
    it starts at `sids[0]`, every step is an edge of `ak`, and its last vertex
    has an edge back to local vertex 0.
  */
  ghost predicate ClosedWalkImage(ak: seq<seq<nat>>, sids: seq<nat>, c: seq<nat>) {
    exists p :: IsWalk(ak, p) && p[0] == 0 && 0 in ak[p[|p| - 1]] && IsImage(sids, p, c)
  }

  /** What a written path tells about its vertices: it starts at `sids[0]` and stays inside `sids`. */
  lemma ClosedWalkImageVertices(ak: seq<seq<nat>>, sids: seq<nat>, c: seq<nat>)
    requires ClosedWalkImage(ak, sids, c)
    ensures |c| >= 1 && |sids| >= 1 && c[0] == sids[0]
    ensures forall x :: x in c ==> x in sids
  {
    var p :| IsWalk(ak, p) && p[0] == 0 && 0 in ak[p[|p| - 1]] && IsImage(sids, p, c);
    forall x | x in c ensures x in sids {
      var i :| 0 <= i < |c| && c[i] == x;
      assert sids[p[i]] == x;
    }
  }

  /** `c` is a closed walk of the graph with edge relation `edge`: each vertex has an edge to the next, and the last one back to the first. */
  ghost predicate IsClosedWalk(edge: (nat, nat) -> bool, c: seq<nat>) {
    && |c| >= 1
    && (forall i :: 0 <= i < |c| - 1 ==> edge(c[i], c[i + 1]))
    && edge(c[|c| - 1], c[0])
  }

  /** Python's `range(lo, hi)`. */
  function Range(lo: nat, hi: nat): (r: seq<nat>)
    ensures |r| == if lo <= hi then hi - lo else 0
    ensures forall j :: 0 <= j < |r| ==> r[j] == lo + j
    decreases hi - lo
  {
    if lo < hi then [lo] + Range(lo + 1, hi) else []
  }

  /**
    The graph `g` as the search sees it: its vertex count, its edges, `g.subgraph(vs)`
    as adjacency lists over local indices (local `j` is global `vs[j]`), and
    `sub.components().membership` for such a subgraph.
  */
  datatype Adapter = Adapter(
    vcount: nat,
    edge: (nat, nat) -> bool,
    subgraph: seq<nat> -> seq<seq<nat>>,
    components: seq<seq<nat>> -> seq<nat>)
  {
    /** The library's answers have the shapes the search indexes them with. */
    ghost predicate Shaped() {
      && (forall vs :: |subgraph(vs)| == |vs|)
      && (forall vs, i, w :: 0 <= i < |vs| && w in subgraph(vs)[i] ==> w < |vs|)
      && (forall adj :: |components(adj)| == |adj|)
    }

    /** The subgraph induced by an increasing list of vertices has exactly the edges of `g` between them. */
    ghost predicate Induces() {
      forall vs, i, j :: StrictlyIncreasing(vs) && |subgraph(vs)| == |vs| && 0 <= i < |vs| && 0 <= j < |vs| ==>
        (j in subgraph(vs)[i] <==> edge(vs[i], vs[j]))
    }

    /** Two vertices share a component label exactly when each reaches the other. */
    ghost predicate LabelsStrongComponents() {
      forall adj, i, j :: 0 <= i < |adj| && 0 <= j < |adj| && |components(adj)| == |adj| ==>
        (components(adj)[i] == components(adj)[j] <==> Reaches(adj, i, j) && Reaches(adj, j, i))
    }

    ghost predicate WellFormed() {
      Shaped() && Induces() && LabelsStrongComponents()
    }
  }

  /** The subgraph induced by `vs` has one adjacency list per vertex of `vs`, naming only its local indices. */
  lemma SubgraphBounded(g: Adapter, vs: seq<nat>)
    requires g.Shaped()
    ensures |g.subgraph(vs)| == |vs|
    ensures forall i, m :: 0 <= i < |g.subgraph(vs)| && 0 <= m < |g.subgraph(vs)[i]| ==> g.subgraph(vs)[i][m] < |vs|
  {
    var adj := g.subgraph(vs);
    forall i, m | 0 <= i < |adj| && 0 <= m < |adj[i]| ensures adj[i][m] < |vs| {
      assert adj[i][m] in adj[i];
    }
  }

  /** A closed walk through local vertex 0 of the subgraph induced by `vs` is a closed walk of `g` that starts at `vs[0]`. */
  lemma ClosedWalkInGraph(g: Adapter, vs: seq<nat>, c: seq<nat>)
    requires g.Shaped() && g.Induces() && StrictlyIncreasing(vs)
    requires ClosedWalkImage(g.subgraph(vs), vs, c)
    ensures IsClosedWalk(g.edge, c) && c[0] == vs[0]
  {
    var ak := g.subgraph(vs);
    var p :| IsWalk(ak, p) && p[0] == 0 && 0 in ak[p[|p| - 1]] && IsImage(vs, p, c);
    forall i | 0 <= i < |c| - 1
      ensures g.edge(c[i], c[i + 1])
    {
      assert p[i + 1] in ak[p[i]];
    }
    assert 0 in ak[p[|p| - 1]];
  }
}

=== FILE: johnson.dfy ===
/**
  Johnson's elementary-circuit search with a maximum path length
  (D. B. Johnson, "Finding all the elementary circuits of a directed graph",
  SIAM J. Comput. 1975), as the class `Cycles` of johnson.py runs it.
*/
module Johnson {
  import opened Wrappers
  import opened Seqs
  import opened Writers
  import opened GraphAdapter

  /**
    The list comprehension `[j + s for j in range(len(m)) if m[j] == comp]`:
    the global ids of the local vertices labelled `comp`, in ascending order.
  */
  function Members(m: seq<nat>, comp: nat, s: nat): (r: seq<nat>)
    ensures |r| == Count(m, comp)
    ensures StrictlyIncreasing(r)
    ensures forall x :: x in r <==> s <= x < s + |m| && m[x - s] == comp
  {
    if m == [] then []
    else
      var init := m[..|m| - 1];
      var rest := Members(init, comp, s);
      assert forall x :: x in rest ==> x < s + |init|;
      assert forall j :: 0 <= j < |rest| ==> rest[j] in rest;
      assert forall j :: 0 <= j < |init| ==> m[j] == init[j];
      rest + (if m[|m| - 1] == comp then [s + |m| - 1] else [])
  }

  /**
    When local vertex `i` is the first whose component has more than one
    member, the members of its component start with `i`'s global id.
  */
  lemma FirstMember(m: seq<nat>, i: nat, s: nat, ids: seq<nat>)
    requires i < |m| && Count(m, m[i]) > 1
    requires forall j :: 0 <= j < i ==> Count(m, m[j]) <= 1
    requires ids == Members(m, m[i], s)
    ensures |ids| >= 2 && ids[0] == i + s
    ensures forall j :: 0 <= j < |m| ==> (j + s in ids <==> m[j] == m[i])
  {
    forall j | 0 <= j < |m| ensures j + s in ids <==> m[j] == m[i] {
      MembersHas(m, m[i], s, j);
    }
    var first := ids[0];
    assert first in ids;
    assert m[first - s] == m[i];
    var k :| 0 <= k < |ids| && ids[k] == i + s;
    assert k == 0;
  }

  /** Local vertex `j` is a member exactly when it is labelled `comp`. */
  lemma MembersHas(m: seq<nat>, comp: nat, s: nat, j: nat)
    requires j < |m|
    ensures j + s in Members(m, comp, s) <==> m[j] == comp
  {
    assert (j + s) - s == j;
  }

  /**
    `get_least_vertex_scc_vertices`, given the membership array of the
    subgraph induced by `{s, ..., n-1}` (local `j` is global `j + s`).
    It returns the ascending global ids of the component of the first local
    vertex whose component has more than one member, or `None` when every
    component is a single vertex.
  */
  method LeastSccVertices(membership: seq<nat>, s: nat) returns (r: Option<seq<nat>>)
    ensures r.None? <==> forall j :: 0 <= j < |membership| ==> Count(membership, membership[j]) <= 1
    ensures r.Some? ==>
      && |r.value| >= 2
      && StrictlyIncreasing(r.value)
      && (forall x :: x in r.value ==> s <= x < s + |membership|)
      && s <= r.value[0] < s + |membership|
      && (forall j :: 0 <= j < r.value[0] - s ==> Count(membership, membership[j]) <= 1)
      && Count(membership, membership[r.value[0] - s]) > 1
      && (forall j :: 0 <= j < |membership| ==>
            (j + s in r.value <==> membership[j] == membership[r.value[0] - s]))
  {
    var i := 0;
    while i < |membership|
      invariant 0 <= i <= |membership|
      invariant forall j :: 0 <= j < i ==> Count(membership, membership[j]) <= 1
    {
      if Count(membership, membership[i]) > 1 {
        var ids := Members(membership, membership[i], s);
        FirstMember(membership, i, s, ids);
        return Some(ids);
      }
      i := i + 1;
    }
    return None;
  }

  /**
    Vertex `k` was released by `unblock(u)` when it is `u` itself or it was
    blocked before the call and is unblocked after it.
  */
  ghost predicate Released(before: map<nat, bool>, after: map<nat, bool>, u: nat, k: nat) {
    k == u || (k in before && k in after && before[k] && !after[k])
  }

  /** The blocked vertices. */
  ghost function Blocked(b: map<nat, bool>): set<nat> {
    set k | k in b && b[k]
  }

  /**
    `blocked` and `B` agree: the same vertices have a flag and a list, no
    list holds a vertex twice, and lists name only vertices with a flag.
  */
  ghost predicate Bookkeeping(b: map<nat, bool>, bl: map<nat, seq<nat>>) {
    && bl.Keys == b.Keys
    && (forall k :: k in bl ==> NoDup(bl[k]))
    && (forall k, w :: k in bl && w in bl[k] ==> w in b)
  }

  /** Replacing a list by a duplicate-free sublist keeps the bookkeeping. */
  lemma BookkeepingShrink(b: map<nat, bool>, bl: map<nat, seq<nat>>, u: nat, x: seq<nat>)
    requires Bookkeeping(b, bl) && u in bl && NoDup(x)
    requires forall w :: w in x ==> w in bl[u]
    ensures Bookkeeping(b, bl[u := x])
  {
  }

  /** Lowering flags shrinks the blocked set. */
  lemma BlockedShrinks(b0: map<nat, bool>, b1: map<nat, bool>)
    requires OnlyUnblocks(b0, b1)
    ensures Blocked(b1) <= Blocked(b0)
  {
  }

  /** From flags `b0` to flags `b1` no vertex became blocked. */
  ghost predicate OnlyUnblocks(b0: map<nat, bool>, b1: map<nat, bool>) {
    b1.Keys == b0.Keys && forall k :: k in b1 && b1[k] ==> b0[k]
  }

  /** Every list of a released vertex (other than `skip`) holds the odd positions of its old value; every other list is unchanged. */
  ghost predicate ListsCut(b0: map<nat, bool>, B0: map<nat, seq<nat>>,
                           b1: map<nat, bool>, B1: map<nat, seq<nat>>, u: nat, skip: Option<nat>) {
    B1.Keys == B0.Keys &&
    forall k :: k in B1 && Some(k) != skip ==>
      B1[k] == if Released(b0, b1, u, k) then OddPositions(B0[k]) else B0[k]
  }

  /** The entries at even positions of every released list (other than `skip`'s) end unblocked. */
  ghost predicate EvensUnblocked(b0: map<nat, bool>, B0: map<nat, seq<nat>>,
                                 b1: map<nat, bool>, u: nat, skip: Option<nat>) {
    forall k, w :: k in B0 && Some(k) != skip && Released(b0, b1, u, k) && w in EvenPositions(B0[k]) ==>
      w in b1 && !b1[w]
  }

  /** `w` is an entry at an even position of the list `B0[k]`. */
  ghost predicate EvenEntry(B0: map<nat, seq<nat>>, k: nat, w: nat) {
    k in B0 && w in EvenPositions(B0[k])
  }

  /** `order[n]` is an even-position entry of the old list of a vertex listed before it in `order`. */
  ghost predicate HangsOff(B0: map<nat, seq<nat>>, order: seq<nat>, n: nat) {
    n < |order| && exists m :: 0 <= m < n && EvenEntry(B0, order[m], order[n])
  }

  /**
    `order` lists exactly the vertices released by `unblock(u)`, `u` first,
    and every later one is an even-position entry of the old list of a
    vertex listed before it: each release is reached from `u`.
  */
  ghost predicate ReleaseOrder(b0: map<nat, bool>, B0: map<nat, seq<nat>>,
                               b1: map<nat, bool>, u: nat, order: seq<nat>) {
    && |order| > 0 && order[0] == u
    && (forall n :: 0 <= n < |order| ==> order[n] in b1 && Released(b0, b1, u, order[n]))
    && (forall w :: w in b1 && Released(b0, b1, u, w) ==> w in order)
    && (forall n :: 0 < n < |order| ==> HangsOff(B0, order, n))
  }

  /**
    The effect of `unblock(u)` from (`b0`, `B0`) to (`b1`, `B1`): `u` ends
    unblocked and no flag is raised; every released vertex keeps only the odd
    positions of its list and every other list is untouched; the entries at
    even positions of a released vertex's list end unblocked; and a vertex
    is released only when a chain of such even entries leads to it from `u`.
  */
  ghost predicate UnblockDone(b0: map<nat, bool>, B0: map<nat, seq<nat>>,
                              b1: map<nat, bool>, B1: map<nat, seq<nat>>, u: nat) {
    && Bookkeeping(b0, B0) && u in b0
    && OnlyUnblocks(b0, b1) && !b1[u]
    && ListsCut(b0, B0, b1, B1, u, None)
    && EvensUnblocked(b0, B0, b1, u, None)
    && exists order :: ReleaseOrder(b0, B0, b1, u, order)
  }

  /**
    The remove-while-iterating loop on a concrete state: with 1, 2 and 3
    blocked and `B[1] == [2, 3]`, `unblock(1)` reaches and unblocks 2, but
    3, at an odd position, stays blocked and stays in `B[1]`.
  */
  lemma UnblockSkipsOddEntry(b1: map<nat, bool>, B1: map<nat, seq<nat>>)
    requires UnblockDone(map[1 := true, 2 := true, 3 := true], map[1 := [2, 3], 2 := [], 3 := []], b1, B1, 1)
    ensures !b1[1] && !b1[2] && b1[3] && B1[1] == [3]
  {
    var b0: map<nat, bool> := map[1 := true, 2 := true, 3 := true];
    var B0: map<nat, seq<nat>> := map[1 := [2, 3], 2 := [], 3 := []];
    assert EvenPositions(B0[1]) == [2] && OddPositions(B0[1]) == [3];
    assert EvenPositions(B0[2]) == [] && EvenPositions(B0[3]) == [];
    assert Released(b0, b1, 1, 1);
    forall k | k in B0 ensures 3 !in EvenPositions(B0[k]) {
      assert k == 1 || k == 2 || k == 3;
    }
    var order :| ReleaseOrder(b0, B0, b1, 1, order);
    forall n | 0 <= n < |order| ensures order[n] != 3 {
      if n > 0 {
        assert HangsOff(B0, order, n);
        var m :| 0 <= m < n && EvenEntry(B0, order[m], order[n]);
      }
    }
  }

  /**
    Releases need a chain from `u`: with 1, 2 and 3 blocked, `B[1] == []`
    and 2 and 3 in each other's lists, `unblock(1)` reaches neither 2 nor
    3, so both stay blocked and keep their lists.
  */
  lemma UnblockNeedsChain(b1: map<nat, bool>, B1: map<nat, seq<nat>>)
    requires UnblockDone(map[1 := true, 2 := true, 3 := true], map[1 := [], 2 := [3], 3 := [2]], b1, B1, 1)
    ensures b1[2] && b1[3] && B1[2] == [3] && B1[3] == [2]
  {
    var b0: map<nat, bool> := map[1 := true, 2 := true, 3 := true];
    var B0: map<nat, seq<nat>> := map[1 := [], 2 := [3], 3 := [2]];
    var order :| ReleaseOrder(b0, B0, b1, 1, order);
    assert EvenPositions(B0[1]) == [];
    assert !HangsOff(B0, order, 1);
    assert order == [1];
    assert 2 in b1 && !Released(b0, b1, 1, 2);
    assert 3 in b1 && !Released(b0, b1, 1, 3);
  }

  /**
    The iterator over `B[u]` after `i` removals: the list `live` holds the
    odd-position entries of `entries` seen so far, then the unseen tail.
  */
  ghost predicate LiveList(entries: seq<nat>, live: seq<nat>, i: nat) {
    && 2 * i <= |entries| + 1 && i <= |entries|
    && |live| == |entries| - i
    && forall k :: 0 <= k < |live| ==>
         live[k] == if k < i then OddPositions(entries)[k] else entries[k + i]
  }

  /** The entries `done` all carry a flag that is down. */
  ghost predicate AllUnblocked(done: seq<nat>, b: map<nat, bool>) {
    forall w :: w in done ==> w in b && !b[w]
  }

  /** Before the first removal the iterator's list is the whole list. */
  lemma LiveListStart(entries: seq<nat>)
    ensures LiveList(entries, entries, 0)
  {
  }

  /** `B[u].remove(v)` for the entry the iterator reaches: it is the next even-position entry, and it is cut out where it stands. */
  lemma {:induction false} LiveListRemove(entries: seq<nat>, live: seq<nat>, i: nat)
    requires LiveList(entries, live, i) && i < |live| && NoDup(live)
    ensures live[i] == EvenPositions(entries)[i]
    ensures LiveList(entries, RemoveFirst(live, live[i]), i + 1)
    ensures NoDup(RemoveFirst(live, live[i]))
  {
    NoDupAt(live, i);
    RemoveFirstAt(live, i);
    NoDupCut(live, i);
    LiveListCut(entries, live, i);
  }

  /** Entry `i` of the iterator's list after `i` removals is even entry `i`; cutting it out gives the state after `i + 1`. */
  lemma LiveListCut(entries: seq<nat>, live: seq<nat>, i: nat)
    requires LiveList(entries, live, i) && i < |live|
    ensures live[i] == EvenPositions(entries)[i]
    ensures LiveList(entries, live[..i] + live[i + 1..], i + 1)
  {
    PositionsAt(entries);
    assert live[i] == entries[2 * i];
    var next := live[..i] + live[i + 1..];
    forall k | 0 <= k < |next|
      ensures next[k] == if k < i + 1 then OddPositions(entries)[k] else entries[k + i + 1]
    {
      if k < i {
        assert next[k] == live[k];
      } else {
        assert next[k] == live[k + 1];
      }
    }
  }

  /** When the iterator runs off the end, exactly the odd-position entries are left, and every even one was reached. */
  lemma {:induction false} LiveListEnd(entries: seq<nat>, live: seq<nat>, i: nat)
    requires LiveList(entries, live, i) && i >= |live|
    ensures live == OddPositions(entries)
    ensures EvenPositions(entries)[..i] == EvenPositions(entries)
  {
    PositionsAt(entries);
  }

  /** A cascaded `unblock(v)` leaves `B[u]` alone and keeps the lists of the outer call as described. */
  lemma CascadeKeepsLists(b0: map<nat, bool>, B0: map<nat, seq<nat>>,
                          b1: map<nat, bool>, B1: map<nat, seq<nat>>,
                          b2: map<nat, bool>, B2: map<nat, seq<nat>>, u: nat, v: nat)
    requires OnlyUnblocks(b0, b1) && u in b1 && !b1[u] && v in b1 && b1[v]
    requires ListsCut(b0, B0, b1, B1, u, Some(u))
    requires B1.Keys == b1.Keys && u in B1
    requires OnlyUnblocks(b1, b2) && ListsCut(b1, B1, b2, B2, v, None) && !b2[v]
    ensures ListsCut(b0, B0, b2, B2, u, Some(u)) && B2[u] == B1[u]
  {
    assert !Released(b1, b2, v, u);
    forall k | k in B2 && k != u
      ensures B2[k] == if Released(b0, b2, u, k) then OddPositions(B0[k]) else B0[k]
    {
      if Released(b1, b2, v, k) {
        assert b1[k];
      } else {
        assert b1[k] == b2[k];
      }
    }
  }

  /** A cascaded `unblock(v)` keeps the outer call's released lists' even entries unblocked, and adds `v`'s. */
  lemma CascadeKeepsEvens(b0: map<nat, bool>, B0: map<nat, seq<nat>>,
                          b1: map<nat, bool>, B1: map<nat, seq<nat>>,
                          b2: map<nat, bool>, u: nat, v: nat)
    requires OnlyUnblocks(b0, b1) && u in b1 && !b1[u] && v in b1 && b1[v]
    requires ListsCut(b0, B0, b1, B1, u, Some(u))
    requires EvensUnblocked(b0, B0, b1, u, Some(u))
    requires OnlyUnblocks(b1, b2) && EvensUnblocked(b1, B1, b2, v, None) && !b2[v]
    ensures EvensUnblocked(b0, B0, b2, u, Some(u))
  {
    forall k, w | k in B0 && Some(k) != Some(u) && Released(b0, b2, u, k) && w in EvenPositions(B0[k])
      ensures w in b2 && !b2[w]
    {
      if Released(b0, b1, u, k) {
        assert w in b1 && !b1[w];
      } else {
        assert k in b1 && b1[k];
        assert B1[k] == B0[k];
        assert Released(b1, b2, v, k) && w in EvenPositions(B1[k]);
      }
    }
  }

  /** The whole effect of a cascaded `unblock(v)` on the outer call's loop state. */
  lemma CascadeStep(b0: map<nat, bool>, B0: map<nat, seq<nat>>,
                    b1: map<nat, bool>, B1: map<nat, seq<nat>>,
                    b2: map<nat, bool>, B2: map<nat, seq<nat>>, u: nat, v: nat)
    requires OnlyUnblocks(b0, b1) && u in b1 && !b1[u] && v in b1 && b1[v]
    requires Bookkeeping(b1, B1)
    requires ListsCut(b0, B0, b1, B1, u, Some(u))
    requires EvensUnblocked(b0, B0, b1, u, Some(u))
    requires UnblockDone(b1, B1, b2, B2, v)
    ensures OnlyUnblocks(b0, b2) && !b2[u] && Blocked(b2) <= Blocked(b1)
    ensures ListsCut(b0, B0, b2, B2, u, Some(u)) && B2[u] == B1[u]
    ensures EvensUnblocked(b0, B0, b2, u, Some(u))
  {
    BlockedShrinks(b1, b2);
    CascadeKeepsLists(b0, B0, b1, B1, b2, B2, u, v);
    CascadeKeepsEvens(b0, B0, b1, B1, b2, u, v);
  }

  /**
    A cascaded `unblock(v)`, for `v` an even entry of `u`'s old list,
    extends the order of the outer call's releases by its own: `v` hangs
    off `u`, and what the cascade releases hangs off lists that the outer
    call had not cut.
  */
  lemma OrderCascade(b0: map<nat, bool>, B0: map<nat, seq<nat>>,
                     b1: map<nat, bool>, B1: map<nat, seq<nat>>,
                     b2: map<nat, bool>, u: nat, v: nat, order: seq<nat>, ov: seq<nat>)
    requires OnlyUnblocks(b0, b1) && u in b1 && !b1[u] && v in b1 && b1[v]
    requires ListsCut(b0, B0, b1, B1, u, Some(u)) && EvenEntry(B0, u, v)
    requires ReleaseOrder(b0, B0, b1, u, order)
    requires OnlyUnblocks(b1, b2) && !b2[v] && ReleaseOrder(b1, B1, b2, v, ov)
    ensures ReleaseOrder(b0, B0, b2, u, order + ov)
  {
    OrderCascadeReleased(b0, b1, b2, u, v, order, ov);
    OrderCascadeCovers(b0, b1, b2, u, v, order, ov);
    OrderCascadeChains(b0, B0, b1, B1, b2, u, v, order, ov);
  }

  /** Everything the two orders list is released by the outer call. */
  lemma OrderCascadeReleased(b0: map<nat, bool>, b1: map<nat, bool>, b2: map<nat, bool>,
                             u: nat, v: nat, order: seq<nat>, ov: seq<nat>)
    requires OnlyUnblocks(b0, b1) && OnlyUnblocks(b1, b2) && v in b1 && b1[v] && !b2[v]
    requires forall n :: 0 <= n < |order| ==> order[n] in b1 && Released(b0, b1, u, order[n])
    requires forall n :: 0 <= n < |ov| ==> ov[n] in b2 && Released(b1, b2, v, ov[n])
    ensures forall n :: 0 <= n < |order + ov| ==> (order + ov)[n] in b2 && Released(b0, b2, u, (order + ov)[n])
  {
    var o := order + ov;
    forall n | 0 <= n < |o| ensures o[n] in b2 && Released(b0, b2, u, o[n]) {
      if n < |order| {
        assert o[n] == order[n];
      } else {
        assert o[n] == ov[n - |order|];
      }
    }
  }

  /** Everything the outer call released so far is in one of the two orders. */
  lemma OrderCascadeCovers(b0: map<nat, bool>, b1: map<nat, bool>, b2: map<nat, bool>,
                           u: nat, v: nat, order: seq<nat>, ov: seq<nat>)
    requires OnlyUnblocks(b0, b1) && OnlyUnblocks(b1, b2)
    requires forall w :: w in b1 && Released(b0, b1, u, w) ==> w in order
    requires forall w :: w in b2 && Released(b1, b2, v, w) ==> w in ov
    ensures forall w :: w in b2 && Released(b0, b2, u, w) ==> w in order + ov
  {
    forall w | w in b2 && Released(b0, b2, u, w) ensures w in order + ov {
      if !Released(b0, b1, u, w) {
        assert Released(b1, b2, v, w);
      }
    }
  }

  /** Each vertex of the joined order hangs off an earlier one. */
  lemma OrderCascadeChains(b0: map<nat, bool>, B0: map<nat, seq<nat>>,
                           b1: map<nat, bool>, B1: map<nat, seq<nat>>,
                           b2: map<nat, bool>, u: nat, v: nat, order: seq<nat>, ov: seq<nat>)
    requires u in b1 && !b1[u]
    requires ListsCut(b0, B0, b1, B1, u, Some(u)) && EvenEntry(B0, u, v)
    requires |order| > 0 && order[0] == u
    requires forall n :: 0 < n < |order| ==> HangsOff(B0, order, n)
    requires |ov| > 0 && ov[0] == v
    requires forall n :: 0 <= n < |ov| ==> ov[n] in b2 && Released(b1, b2, v, ov[n])
    requires v in b1 && b1[v]
    requires forall n :: 0 < n < |ov| ==> HangsOff(B1, ov, n)
    ensures forall n :: 0 < n < |order + ov| ==> HangsOff(B0, order + ov, n)
  {
    forall n | 0 < n < |order + ov| ensures HangsOff(B0, order + ov, n) {
      if n < |order| {
        assert HangsOff(B0, order, n);
        var m :| 0 <= m < n && EvenEntry(B0, order[m], order[n]);
        assert (order + ov)[m] == order[m] && (order + ov)[n] == order[n];
      } else if n == |order| {
        assert (order + ov)[0] == u && (order + ov)[n] == v;
        assert EvenEntry(B0, (order + ov)[0], (order + ov)[n]);
      } else {
        var n' := n - |order|;
        assert HangsOff(B1, ov, n');
        var m' :| 0 <= m' < n' && EvenEntry(B1, ov[m'], ov[n']);
        var k := ov[m'];
        assert Released(b1, b2, v, k);
        assert k in B1 && b1[k] && k != u;
        assert B1[k] == B0[k];
        assert (order + ov)[|order| + m'] == k && (order + ov)[n] == ov[n'];
        assert EvenEntry(B0, (order + ov)[|order| + m'], (order + ov)[n]);
      }
    }
  }

  /** Cutting the list of `u` itself keeps the other lists as described. */
  lemma RemoveKeepsLists(b0: map<nat, bool>, B0: map<nat, seq<nat>>,
                         b: map<nat, bool>, bl: map<nat, seq<nat>>, u: nat, x: seq<nat>)
    requires ListsCut(b0, B0, b, bl, u, Some(u)) && u in bl
    ensures ListsCut(b0, B0, b, bl[u := x], u, Some(u))
  {
  }

  /** At the end of the loop, the list of `u` and its even entries join the others. */
  lemma UnblockFinish(b0: map<nat, bool>, B0: map<nat, seq<nat>>,
                      b: map<nat, bool>, bl: map<nat, seq<nat>>, u: nat, order: seq<nat>)
    requires Bookkeeping(b0, B0) && u in b0 && OnlyUnblocks(b0, b) && !b[u]
    requires ListsCut(b0, B0, b, bl, u, Some(u)) && bl[u] == OddPositions(B0[u])
    requires EvensUnblocked(b0, B0, b, u, Some(u)) && AllUnblocked(EvenPositions(B0[u]), b)
    requires ReleaseOrder(b0, B0, b, u, order)
    ensures UnblockDone(b0, B0, b, bl, u)
  {
    FinishLists(b0, B0, b, bl, u);
    FinishEvens(b0, B0, b, u);
  }

  /** The list of `u` itself, cut to its odd positions, joins the other released lists. */
  lemma FinishLists(b0: map<nat, bool>, B0: map<nat, seq<nat>>,
                    b: map<nat, bool>, bl: map<nat, seq<nat>>, u: nat)
    requires ListsCut(b0, B0, b, bl, u, Some(u)) && u in bl && bl[u] == OddPositions(B0[u])
    ensures ListsCut(b0, B0, b, bl, u, None)
  {
  }

  /** The even entries of `u`'s own list, all unblocked, join those of the other released lists. */
  lemma FinishEvens(b0: map<nat, bool>, B0: map<nat, seq<nat>>, b: map<nat, bool>, u: nat)
    requires u in B0 && EvensUnblocked(b0, B0, b, u, Some(u)) && AllUnblocked(EvenPositions(B0[u]), b)
    ensures EvensUnblocked(b0, B0, b, u, None)
  {
  }

  /** A cascade or a skip lowers no flag that `done` had lowered, and `v` joins them. */
  lemma AllUnblockedGrows(done: seq<nat>, b1: map<nat, bool>, b2: map<nat, bool>, v: nat)
    requires AllUnblocked(done, b1) && OnlyUnblocks(b1, b2) && v in b2 && !b2[v]
    ensures AllUnblocked(done + [v], b2)
  {
  }

  /**
    The state of `unblock(u)`'s loop after `i` entries of `B[u]` were
    reached, starting from flags `b0` and lists `B0`.
  */
  ghost predicate UnblockLoop(b0: map<nat, bool>, B0: map<nat, seq<nat>>,
                              b: map<nat, bool>, bl: map<nat, seq<nat>>, u: nat, i: nat, order: seq<nat>) {
    && Bookkeeping(b0, B0) && u in b0
    && Bookkeeping(b, bl) && u in bl
    && OnlyUnblocks(b0, b) && !b[u]
    && Blocked(b) <= Blocked(b0) - {u}
    && LiveList(B0[u], bl[u], i)
    && i <= |EvenPositions(B0[u])|
    && AllUnblocked(EvenPositions(B0[u])[..i], b)
    && ListsCut(b0, B0, b, bl, u, Some(u))
    && EvensUnblocked(b0, B0, b, u, Some(u))
    && ReleaseOrder(b0, B0, b, u, order)
  }

  /** `self.blocked[u] = False` starts the loop. */
  lemma LoopStart(b0: map<nat, bool>, B0: map<nat, seq<nat>>, u: nat)
    requires Bookkeeping(b0, B0) && u in b0
    ensures UnblockLoop(b0, B0, b0[u := false], B0, u, 0, [u])
  {
    LiveListStart(B0[u]);
  }

  /** The entry the loop reaches has a flag, its removal keeps the bookkeeping, and a cascade from it is a smaller call. */
  lemma LoopNext(b0: map<nat, bool>, B0: map<nat, seq<nat>>,
                 b: map<nat, bool>, bl: map<nat, seq<nat>>, u: nat, i: nat, order: seq<nat>)
    requires UnblockLoop(b0, B0, b, bl, u, i, order) && i < |bl[u]|
    ensures bl[u][i] in b
    ensures Bookkeeping(b, bl[u := RemoveFirst(bl[u], bl[u][i])])
    ensures Blocked(b) <= Blocked(b0) && (b0[u] ==> Blocked(b) < Blocked(b0))
    ensures b[bl[u][i]] ==> bl[u][i] in Blocked(b)
  {
    var v := bl[u][i];
    LiveListRemove(B0[u], bl[u], i);
    BookkeepingShrink(b, bl, u, RemoveFirst(bl[u], v));
    if b0[u] {
      assert u in Blocked(b0) && u !in Blocked(b);
    }
  }

  /** The reached entry was not blocked: it is only removed. */
  lemma LoopSkip(b0: map<nat, bool>, B0: map<nat, seq<nat>>,
                 b: map<nat, bool>, bl: map<nat, seq<nat>>, u: nat, i: nat, order: seq<nat>)
    requires UnblockLoop(b0, B0, b, bl, u, i, order) && i < |bl[u]| && bl[u][i] in b && !b[bl[u][i]]
    ensures UnblockLoop(b0, B0, b, bl[u := RemoveFirst(bl[u], bl[u][i])], u, i + 1, order)
  {
    var v := bl[u][i];
    var evens := EvenPositions(B0[u]);
    LiveListRemove(B0[u], bl[u], i);
    PrefixStep(evens, i);
    BookkeepingShrink(b, bl, u, RemoveFirst(bl[u], v));
    RemoveKeepsLists(b0, B0, b, bl, u, RemoveFirst(bl[u], v));
    AllUnblockedGrows(evens[..i], b, b, v);
  }

  /** The reached entry was blocked: it is removed and `unblock` cascades to it, taking the flags to `b2` and the lists to `B2`. */
  lemma LoopCascade(b0: map<nat, bool>, B0: map<nat, seq<nat>>,
                    b: map<nat, bool>, bl: map<nat, seq<nat>>,
                    b2: map<nat, bool>, B2: map<nat, seq<nat>>, u: nat, i: nat, order: seq<nat>, ov: seq<nat>)
    requires UnblockLoop(b0, B0, b, bl, u, i, order) && i < |bl[u]| && bl[u][i] in b && b[bl[u][i]]
    requires UnblockDone(b, bl[u := RemoveFirst(bl[u], bl[u][i])], b2, B2, bl[u][i])
    requires ReleaseOrder(b, bl[u := RemoveFirst(bl[u], bl[u][i])], b2, bl[u][i], ov)
    requires Bookkeeping(b2, B2)
    ensures UnblockLoop(b0, B0, b2, B2, u, i + 1, order + ov)
  {
    var v := bl[u][i];
    var evens := EvenPositions(B0[u]);
    var bl1 := bl[u := RemoveFirst(bl[u], v)];
    LiveListRemove(B0[u], bl[u], i);
    PrefixStep(evens, i);
    BookkeepingShrink(b, bl, u, RemoveFirst(bl[u], v));
    RemoveKeepsLists(b0, B0, b, bl, u, RemoveFirst(bl[u], v));
    CascadeStep(b0, B0, b, bl1, b2, B2, u, v);
    OrderCascade(b0, B0, b, bl1, b2, u, v, order, ov);
    AllUnblockedGrows(evens[..i], b, b2, v);
  }

  /** The iterator ran off the end: the call has the effect `UnblockDone` describes. */
  lemma LoopEnd(b0: map<nat, bool>, B0: map<nat, seq<nat>>,
                b: map<nat, bool>, bl: map<nat, seq<nat>>, u: nat, i: nat, order: seq<nat>)
    requires UnblockLoop(b0, B0, b, bl, u, i, order) && i >= |bl[u]|
    ensures UnblockDone(b0, B0, b, bl, u) && Bookkeeping(b, bl)
  {
    LiveListEnd(B0[u], bl[u], i);
    UnblockFinish(b0, B0, b, bl, u, order);
  }

  /** From flags `b0` to flags `b1` no vertex was unblocked. */
  ghost predicate OnlyBlocks(b0: map<nat, bool>, b1: map<nat, bool>) {
    b1.Keys == b0.Keys && forall k :: k in b0 && b0[k] ==> b1[k]
  }

  /** From `B0` to `B1` every list only had entries appended. */
  ghost predicate ListsGrow(B0: map<nat, seq<nat>>, B1: map<nat, seq<nat>>) {
    B1.Keys == B0.Keys && forall k :: k in B0 ==> B0[k] <= B1[k]
  }

  lemma OnlyBlocksTrans(b0: map<nat, bool>, b1: map<nat, bool>, b2: map<nat, bool>)
    requires OnlyBlocks(b0, b1) && OnlyBlocks(b1, b2)
    ensures OnlyBlocks(b0, b2)
  {
  }

  lemma ListsGrowTrans(B0: map<nat, seq<nat>>, B1: map<nat, seq<nat>>, B2: map<nat, seq<nat>>)
    requires ListsGrow(B0, B1) && ListsGrow(B1, B2)
    ensures ListsGrow(B0, B2)
  {
    forall k | k in B0 ensures B0[k] <= B2[k] {
      assert B1[k][..|B0[k]|] == B0[k];
      assert B2[k][..|B1[k]|] == B1[k];
      assert B2[k][..|B0[k]|] == B1[k][..|B0[k]|];
    }
  }

  /**
    The writes from `before` to `after`: `after` is `before` followed by
    paths that are closed walks through local vertex 0 of `ak` in global ids,
    none longer than `maxlength` unless it is the root alone.
  */
  ghost predicate WritesClosedWalks(before: seq<seq<nat>>, after: seq<seq<nat>>,
                                    ak: seq<seq<nat>>, sids: seq<nat>, maxlength: int) {
    && |before| <= |after| && after[..|before|] == before
    && forall i :: |before| <= i < |after| ==>
         ClosedWalkImage(ak, sids, after[i]) && (|after[i]| <= maxlength || |after[i]| == 1)
  }

  lemma WritesTrans(a: seq<seq<nat>>, b: seq<seq<nat>>, c: seq<seq<nat>>,
                    ak: seq<seq<nat>>, sids: seq<nat>, maxlength: int)
    requires WritesClosedWalks(a, b, ak, sids, maxlength) && WritesClosedWalks(b, c, ak, sids, maxlength)
    ensures WritesClosedWalks(a, c, ak, sids, maxlength)
  {
    assert c[..|a|] == c[..|b|][..|a|];
  }

  lemma WritesOne(a: seq<seq<nat>>, b: seq<seq<nat>>, c: seq<nat>,
                  ak: seq<seq<nat>>, sids: seq<nat>, maxlength: int)
    requires WritesClosedWalks(a, b, ak, sids, maxlength)
    requires ClosedWalkImage(ak, sids, c) && (|c| <= maxlength || |c| == 1)
    ensures WritesClosedWalks(a, b + [c], ak, sids, maxlength)
  {
    assert (b + [c])[..|a|] == b[..|a|];
  }

  /**
    Pushing `u` on the stack: the local path extended by `u` is a walk from
    local vertex 0 whose image is the new stack, and it is no longer than
    `maxlength` unless it holds the root alone.
  */
  lemma PushedPath(ak: seq<seq<nat>>, sids: seq<nat>, maxlength: int, path: seq<nat>, stack: seq<nat>, u: nat)
    requires CallableAt(ak, sids, maxlength, stack, path, u)
    ensures OnPath(ak, sids, maxlength, stack + [sids[u]], path + [u])
  {
    var here := path + [u];
    assert forall i :: 0 <= i < |path| ==> here[i] == path[i];
  }

  /** One more successor looked at: the count of edges back to the root. */
  lemma CountStep(succ: seq<nat>, j: nat)
    requires j < |succ|
    ensures Count(succ[..j + 1], 0) == Count(succ[..j], 0) + (if succ[j] == 0 then 1 else 0)
    ensures 0 in succ[..j + 1] <==> 0 in succ[..j] || succ[j] == 0
  {
    assert succ[..j + 1][..j] == succ[..j];
  }

  /**
    The state of `cycle(u)`'s loop after `j` of the successors `succ`, with
    `stack` ending in `u`: the writes since `calls0` are closed walks; `f`
    holds exactly when something was written or a branch was `cut` at the
    depth limit; an edge back to the root already seen means `f` and that
    the stack was written; while nothing is found no write happened, no
    flag was lowered and lists only grew since the push (`b1`, `B1`); and at
    the depth limit every successor seen counts as found, those other than
    the root are the cuts, and each edge back to the root wrote the stack
    once.
  */
  ghost predicate Scan(ak: seq<seq<nat>>, sids: seq<nat>, maxlength: int, stack: seq<nat>,
                       succ: seq<nat>, j: nat, f: bool, cut: bool,
                       calls0: seq<seq<nat>>, calls: seq<seq<nat>>,
                       b1: map<nat, bool>, b: map<nat, bool>,
                       B1: map<nat, seq<nat>>, B: map<nat, seq<nat>>) {
    && j <= |succ| && b.Keys == b1.Keys
    && WritesClosedWalks(calls0, calls, ak, sids, maxlength)
    && (f <==> |calls0| < |calls| || cut)
    && (0 in succ[..j] ==> f && stack in calls[|calls0|..])
    && (!f ==> calls == calls0 && OnlyBlocks(b1, b) && ListsGrow(B1, B))
    && (|stack| >= maxlength ==> (f <==> j > 0) && (cut <==> Count(succ[..j], 0) < j))
    && (|stack| >= maxlength ==>
          && |calls| == |calls0| + Count(succ[..j], 0)
          && forall i :: |calls0| <= i < |calls| ==> calls[i] == stack)
  }

  lemma ScanStart(ak: seq<seq<nat>>, sids: seq<nat>, maxlength: int, stack: seq<nat>, succ: seq<nat>,
                  calls0: seq<seq<nat>>, b1: map<nat, bool>, B1: map<nat, seq<nat>>)
    ensures Scan(ak, sids, maxlength, stack, succ, 0, false, false, calls0, calls0, b1, b1, B1, B1)
  {
  }

  /**
    The effect of `cycle(u)` on the stack `stack` from flags `b0`, lists
    `B0` and writes `calls0` to `b`, `B`, `calls`: the keys stay; every write
    is a closed walk through the root; `found` holds exactly when something
    was written or a branch was `cut` at the depth limit; an edge from `u`
    back to the root means `found` and that the new stack was written; when
    found `u` ends unblocked; when not, `u` stays
    blocked, nothing was written, no flag was lowered, lists only grew and
    `u` is in the list of each of its successors; and when `u` sits at the
    depth limit, found means `u` has a successor, a cut means one of them
    is not the root, and the new stack was written once per edge back to
    the root.
  */
  ghost predicate CycleDone(ak: seq<seq<nat>>, sids: seq<nat>, maxlength: int, stack: seq<nat>,
                            u: nat, found: bool, cut: bool,
                            b0: map<nat, bool>, B0: map<nat, seq<nat>>, calls0: seq<seq<nat>>,
                            b: map<nat, bool>, B: map<nat, seq<nat>>, calls: seq<seq<nat>>) {
    && u < |ak| && u < |sids| && sids[u] in b && b.Keys == b0.Keys
    && WritesClosedWalks(calls0, calls, ak, sids, maxlength)
    && (found <==> |calls0| < |calls| || cut)
    && (0 in ak[u] ==> found && stack + [sids[u]] in calls[|calls0|..])
    && (found ==> !b[sids[u]])
    && (!found ==>
          && b[sids[u]] && calls == calls0 && OnlyBlocks(b0, b) && ListsGrow(B0, B)
          && forall m :: 0 <= m < |ak[u]| ==>
               ak[u][m] < |sids| && sids[ak[u][m]] in B && sids[u] in B[sids[ak[u][m]]])
    && (|stack| + 1 >= maxlength ==>
          && (found <==> ak[u] != [])
          && (cut <==> Count(ak[u], 0) < |ak[u]|)
          && calls == calls0 + Repeat(stack + [sids[u]], Count(ak[u], 0)))
  }

  /**
    What the loop of `cycle` needs to know of one look at a successor `v`
    of the vertex on top of `stack`, from flags `b0`, lists `B0` and writes
    `calls0` to `b`, `B`, `calls`: the keys stay; every write is a closed
    walk; a hit means something was written or a branch was `cut` at the
    depth limit; without a hit nothing was written, no flag was lowered and
    lists only grew; an edge back to the root writes the stack once,
    changes nothing else and is a hit; any other edge at the depth limit
    changes nothing and is a hit and a cut.
  */
  ghost predicate Looked(ak: seq<seq<nat>>, sids: seq<nat>, maxlength: int, stack: seq<nat>,
                         v: nat, hit: bool, cut: bool,
                         b0: map<nat, bool>, B0: map<nat, seq<nat>>, calls0: seq<seq<nat>>,
                         b: map<nat, bool>, B: map<nat, seq<nat>>, calls: seq<seq<nat>>) {
    && b.Keys == b0.Keys
    && WritesClosedWalks(calls0, calls, ak, sids, maxlength)
    && (hit <==> |calls0| < |calls| || cut)
    && (!hit ==> calls == calls0 && OnlyBlocks(b0, b) && ListsGrow(B0, B))
    && (v == 0 ==> hit && !cut && calls == calls0 + [stack] && b == b0 && B == B0)
    && (v != 0 && |stack| >= maxlength ==> hit && cut && calls == calls0 && b == b0 && B == B0)
  }

  /**
    The effect of looking at one successor `v`: what `Looked` says, and
    below the depth limit a blocked successor changes nothing and is
    neither a hit nor a cut, while an unblocked one has the effect of
    `cycle(v)`, whose result and cut are the hit and the cut.
  */
  ghost predicate VisitDone(ak: seq<seq<nat>>, sids: seq<nat>, maxlength: int, stack: seq<nat>,
                            v: nat, hit: bool, cut: bool,
                            b0: map<nat, bool>, B0: map<nat, seq<nat>>, calls0: seq<seq<nat>>,
                            b: map<nat, bool>, B: map<nat, seq<nat>>, calls: seq<seq<nat>>) {
    && Looked(ak, sids, maxlength, stack, v, hit, cut, b0, B0, calls0, b, B, calls)
    && (v != 0 && |stack| < maxlength && v < |sids| && sids[v] in b0 ==>
          if b0[sids[v]] then !hit && !cut && calls == calls0 && b == b0 && B == B0
          else CycleDone(ak, sids, maxlength, stack, v, hit, cut, b0, B0, calls0, b, B, calls))
  }

  /** `v == 0`: the stack, the image of a walk from the root back to it, is written. */
  lemma VisitWrite(ak: seq<seq<nat>>, sids: seq<nat>, maxlength: int, path: seq<nat>, stack: seq<nat>,
                   b: map<nat, bool>, B: map<nat, seq<nat>>, calls: seq<seq<nat>>)
    requires OnPath(ak, sids, maxlength, stack, path) && 0 in ak[path[|path| - 1]]
    ensures VisitDone(ak, sids, maxlength, stack, 0, true, false, b, B, calls, b, B, calls + [stack])
  {
    assert ClosedWalkImage(ak, sids, stack);
    WritesOne(calls, calls, stack, ak, sids, maxlength);
  }

  /** `v != 0` blocked below the depth limit: nothing happens and it is no hit. */
  lemma VisitPass(ak: seq<seq<nat>>, sids: seq<nat>, maxlength: int, stack: seq<nat>, v: nat,
                  b: map<nat, bool>, B: map<nat, seq<nat>>, calls: seq<seq<nat>>)
    requires v != 0 && |stack| < maxlength && v < |sids| && sids[v] in b && b[sids[v]]
    ensures VisitDone(ak, sids, maxlength, stack, v, false, false, b, B, calls, b, B, calls)
  {
    assert calls[..|calls|] == calls;
  }

  /** `v != 0` at the depth limit: nothing happens, yet it counts as a hit. */
  lemma VisitCut(ak: seq<seq<nat>>, sids: seq<nat>, maxlength: int, stack: seq<nat>, v: nat,
                 b: map<nat, bool>, B: map<nat, seq<nat>>, calls: seq<seq<nat>>)
    requires v != 0 && |stack| >= maxlength
    ensures VisitDone(ak, sids, maxlength, stack, v, true, true, b, B, calls, b, B, calls)
  {
    assert calls[..|calls|] == calls && calls + [] == calls;
  }

  /** `v != 0` unblocked below the depth limit: a descent into `v` that returned `r`. */
  lemma VisitDescend(ak: seq<seq<nat>>, sids: seq<nat>, maxlength: int, stack: seq<nat>, v: nat, r: bool, c: bool,
                     b0: map<nat, bool>, B0: map<nat, seq<nat>>, calls0: seq<seq<nat>>,
                     b: map<nat, bool>, B: map<nat, seq<nat>>, calls: seq<seq<nat>>)
    requires v != 0 && |stack| < maxlength && v < |sids| && sids[v] in b0 && !b0[sids[v]]
    requires CycleDone(ak, sids, maxlength, stack, v, r, c, b0, B0, calls0, b, B, calls)
    ensures VisitDone(ak, sids, maxlength, stack, v, r, c, b0, B0, calls0, b, B, calls)
  {
  }

  /** The loop of `cycle` after one more successor. */
  lemma ScanVisit(ak: seq<seq<nat>>, sids: seq<nat>, maxlength: int, stack: seq<nat>,
                  succ: seq<nat>, j: nat, f: bool, cut: bool,
                  calls0: seq<seq<nat>>, calls: seq<seq<nat>>,
                  b1: map<nat, bool>, b: map<nat, bool>, B1: map<nat, seq<nat>>, B: map<nat, seq<nat>>,
                  hit: bool, vcut: bool, calls2: seq<seq<nat>>, b2: map<nat, bool>, B2: map<nat, seq<nat>>,
                  f2: bool, cut2: bool)
    requires Scan(ak, sids, maxlength, stack, succ, j, f, cut, calls0, calls, b1, b, B1, B)
    requires j < |succ|
    requires Looked(ak, sids, maxlength, stack, succ[j], hit, vcut, b, B, calls, b2, B2, calls2)
    requires f2 == (f || hit) && cut2 == (cut || vcut)
    ensures Scan(ak, sids, maxlength, stack, succ, j + 1, f2, cut2, calls0, calls2, b1, b2, B1, B2)
  {
    CountStep(succ, j);
    WritesTrans(calls0, calls, calls2, ak, sids, maxlength);
    if !f && !hit {
      OnlyBlocksTrans(b1, b, b2);
      ListsGrowTrans(B1, B, B2);
    }
    if |stack| >= maxlength {
      ScanAtLimit(stack, succ, j, f, cut, calls0, calls, hit, vcut, calls2, f2, cut2);
    }
    if succ[j] == 0 {
      LastWritten(calls0, calls, stack);
    } else if 0 in succ[..j] {
      StillWritten(calls0, calls, calls2, stack);
    }
  }

  /** One more successor seen at the depth limit keeps the counts of `Scan`. */
  lemma ScanAtLimit(stack: seq<nat>, succ: seq<nat>, j: nat, f: bool, cut: bool,
                    calls0: seq<seq<nat>>, calls: seq<seq<nat>>,
                    hit: bool, vcut: bool, calls2: seq<seq<nat>>, f2: bool, cut2: bool)
    requires j < |succ|
    requires (f <==> j > 0) && (cut <==> Count(succ[..j], 0) < j)
    requires |calls| == |calls0| + Count(succ[..j], 0) && forall i :: |calls0| <= i < |calls| ==> calls[i] == stack
    requires succ[j] == 0 ==> hit && !vcut && calls2 == calls + [stack]
    requires succ[j] != 0 ==> hit && vcut && calls2 == calls
    requires f2 == (f || hit) && cut2 == (cut || vcut)
    ensures (f2 <==> j + 1 > 0) && (cut2 <==> Count(succ[..j + 1], 0) < j + 1)
    ensures |calls2| == |calls0| + Count(succ[..j + 1], 0)
    ensures forall i :: |calls0| <= i < |calls2| ==> calls2[i] == stack
  {
    CountStep(succ, j);
  }

  /** The path just written is among the writes since `calls0`. */
  lemma LastWritten(calls0: seq<seq<nat>>, calls: seq<seq<nat>>, c: seq<nat>)
    requires |calls0| <= |calls|
    ensures c in (calls + [c])[|calls0|..]
  {
    assert (calls + [c])[|calls0|..][|calls| - |calls0|] == c;
  }

  /** A path written since `calls0` stays among the writes as more follow. */
  lemma StillWritten(calls0: seq<seq<nat>>, calls: seq<seq<nat>>, calls2: seq<seq<nat>>, c: seq<nat>)
    requires |calls0| <= |calls| <= |calls2| && calls2[..|calls|] == calls
    requires c in calls[|calls0|..]
    ensures c in calls2[|calls0|..]
  {
    var k :| 0 <= k < |calls| - |calls0| && calls[|calls0|..][k] == c;
    assert calls2[..|calls|][|calls0| + k] == calls2[|calls0|..][k];
  }

  /** The flags, the blocking lists and the writes at one moment of the search. */
  datatype Snapshot = Snapshot(flags: map<nat, bool>, lists: map<nat, seq<nat>>, calls: seq<seq<nat>>)

  /** How many more vertices fit on a stack of `depth` vertices before the depth limit `maxlength`. */
  function Room(maxlength: int, depth: int): nat {
    if depth < maxlength then maxlength - depth else 0
  }

  /**
    `cycle(u)`, called with `stack` below it, can take the search from `st0`
    to `st` and return `found`: it does so along some turns of its loop
    (`CycleTrace`). The ghost `cut` is whether some look below `u` stopped
    at the depth limit.
  */
  ghost predicate CycleRuns(ak: seq<seq<nat>>, sids: seq<nat>, maxlength: int, stack: seq<nat>,
                            u: nat, found: bool, cut: bool, st0: Snapshot, st: Snapshot)
    decreases Room(maxlength, |stack| + 1), 3
  {
    exists hits: seq<bool>, cuts: seq<bool>, sts: seq<Snapshot> ::
      CycleTrace(ak, sids, maxlength, stack, u, found, cut, st0, st, hits, cuts, sts)
  }

  /**
    `cycle(u)` takes the search from `st0` to `st` and returns `found`,
    step by step as johnson.py runs it: `u` is pushed and blocked; its
    successors are looked at in order, the `k`-th look taking the state from
    `sts[k]` to `sts[k + 1]` with hit `hits[k]` and cut `cuts[k]`
    (`VisitRuns`); `found` is whether some look was a hit and `cut` whether
    some was a cut; and `u` is then unblocked or registered (`Settles`).
  */
  ghost predicate CycleTrace(ak: seq<seq<nat>>, sids: seq<nat>, maxlength: int, stack: seq<nat>,
                             u: nat, found: bool, cut: bool, st0: Snapshot, st: Snapshot,
                             hits: seq<bool>, cuts: seq<bool>, sts: seq<Snapshot>)
    decreases Room(maxlength, |stack| + 1), 2
  {
    && u < |ak| && u < |sids| && sids[u] in st0.flags
    && (forall m :: 0 <= m < |ak[u]| ==> ak[u][m] < |sids|)
    && |sts| == |ak[u]| + 1
    && LoopRuns(ak, sids, maxlength, stack + [sids[u]], ak[u], |ak[u]|, hits, cuts, sts)
    && sts[0] == st0.(flags := st0.flags[sids[u] := true])
    && found == (true in hits) && cut == (true in cuts)
    && Settles(sids[u], GlobalIds(sids, ak[u]), found, sts[|ak[u]|], st)
  }

  /**
    The first `j` turns of `cycle`'s loop over the successors `succ` of the
    vertex on top of `stack`: the `k`-th takes the search from `sts[k]` to
    `sts[k + 1]` with hit `hits[k]` and cut `cuts[k]`.
  */
  ghost predicate LoopRuns(ak: seq<seq<nat>>, sids: seq<nat>, maxlength: int, stack: seq<nat>,
                           succ: seq<nat>, j: nat, hits: seq<bool>, cuts: seq<bool>, sts: seq<Snapshot>)
    decreases Room(maxlength, |stack|), 1
  {
    && j <= |succ| && |hits| == j && |cuts| == j && |sts| == j + 1
    && forall k {:trigger hits[k]} :: 0 <= k < j ==>
         VisitRuns(ak, sids, maxlength, stack, succ[k], hits[k], cuts[k], sts[k], sts[k + 1])
  }

  /**
    One turn of `cycle`'s loop, on the successor `v` of the vertex on top
    of `stack`, from `st0` to `st`: an edge back to the root writes the
    stack and is a hit; any other edge below the depth limit is skipped when
    `v` is blocked and otherwise runs `cycle(v)`, whose result is the hit;
    at the depth limit it is a hit, and a cut, with no effect.
  */
  ghost predicate VisitRuns(ak: seq<seq<nat>>, sids: seq<nat>, maxlength: int, stack: seq<nat>,
                            v: nat, hit: bool, cut: bool, st0: Snapshot, st: Snapshot)
    decreases Room(maxlength, |stack|), 0
  {
    && v < |sids|
    && if v == 0 then hit && !cut && st == st0.(calls := st0.calls + [stack])
       else if |stack| < maxlength then
         && sids[v] in st0.flags
         && if st0.flags[sids[v]] then !hit && !cut && st == st0
            else CycleRuns(ak, sids, maxlength, stack, v, hit, cut, st0, st)
       else hit && cut && st == st0
  }

  /**
    The end of `cycle(u)` for `nu == sids[u]` with global successors
    `ids`, from `st0` to `st`: nothing is written; when `found`, `unblock(nu)`
    runs, and otherwise `nu` is registered with every successor.
  */
  ghost predicate Settles(nu: nat, ids: seq<nat>, found: bool, st0: Snapshot, st: Snapshot) {
    && st.calls == st0.calls
    && if found then UnblockDone(st0.flags, st0.lists, st.flags, st.lists, nu)
       else
         && (forall m :: 0 <= m < |ids| ==> ids[m] in st0.lists)
         && st.flags == st0.flags && st.lists == RegisterAll(st0.lists, nu, ids)
  }

  /** One more turn of `cycle`'s loop extends the run of the loop. */
  lemma LoopRunsMore(ak: seq<seq<nat>>, sids: seq<nat>, maxlength: int, stack: seq<nat>, succ: seq<nat>, j: nat,
                     hits: seq<bool>, cuts: seq<bool>, sts: seq<Snapshot>, hit: bool, cut: bool, st: Snapshot)
    requires LoopRuns(ak, sids, maxlength, stack, succ, j, hits, cuts, sts) && j < |succ|
    requires VisitRuns(ak, sids, maxlength, stack, succ[j], hit, cut, sts[j], st)
    ensures LoopRuns(ak, sids, maxlength, stack, succ, j + 1, hits + [hit], cuts + [cut], sts + [st])
    ensures (true in hits + [hit]) == ((true in hits) || hit) && (true in cuts + [cut]) == ((true in cuts) || cut)
  {
    var hits', cuts', sts' := hits + [hit], cuts + [cut], sts + [st];
    forall k | 0 <= k < j + 1
      ensures VisitRuns(ak, sids, maxlength, stack, succ[k], hits'[k], cuts'[k], sts'[k], sts'[k + 1])
    {
      if k < j {
        assert hits'[k] == hits[k] && cuts'[k] == cuts[k] && sts'[k] == sts[k] && sts'[k + 1] == sts[k + 1];
      }
    }
  }

  /** The pieces of one `cycle(u)`, put together. */
  lemma CycleRunsFrom(ak: seq<seq<nat>>, sids: seq<nat>, maxlength: int, stack: seq<nat>,
                      u: nat, found: bool, cut: bool, st0: Snapshot, st: Snapshot,
                      hits: seq<bool>, cuts: seq<bool>, sts: seq<Snapshot>)
    requires u < |ak| && u < |sids| && sids[u] in st0.flags
    requires forall m :: 0 <= m < |ak[u]| ==> ak[u][m] < |sids|
    requires LoopRuns(ak, sids, maxlength, stack + [sids[u]], ak[u], |ak[u]|, hits, cuts, sts)
    requires sts[0] == st0.(flags := st0.flags[sids[u] := true])
    requires found == (true in hits) && cut == (true in cuts)
    requires Settles(sids[u], GlobalIds(sids, ak[u]), found, sts[|ak[u]|], st)
    ensures CycleRuns(ak, sids, maxlength, stack, u, found, cut, st0, st)
  {
    assert CycleTrace(ak, sids, maxlength, stack, u, found, cut, st0, st, hits, cuts, sts);
  }

  /** A loop of one turn found, or cut, exactly when that turn did. */
  lemma OneTurn(bs: seq<bool>)
    requires |bs| == 1
    ensures (true in bs) == bs[0]
  {
    assert bs == [bs[0]];
  }

  /**
    `unblock(u)` leaves alone every other vertex that was not blocked: it
    stays unblocked and keeps its list.
  */
  lemma UnblockSpares(b0: map<nat, bool>, B0: map<nat, seq<nat>>, b1: map<nat, bool>, B1: map<nat, seq<nat>>,
                      u: nat, k: nat)
    requires UnblockDone(b0, B0, b1, B1, u)
    requires k != u && k in b0 && !b0[k]
    ensures k in b1 && !b1[k] && B1[k] == B0[k]
  {
    assert !Released(b0, b1, u, k);
  }

  /**
    A round on the two-cycle `{3, 4}` from reset flags and lists: `cycle(0)`
    descends into local vertex 1, whose edge back to the root writes
    `[3, 4]`, so the round is found, nothing is cut, and exactly that path
    is written.
  */
  lemma TwoCycleRound(found: bool, cut: bool, st: Snapshot)
    requires CycleRuns([[1], [0]], [3, 4], 5, [], 0, found, cut,
                       Snapshot(map[3 := false, 4 := false], map[3 := [], 4 := []], []), st)
    ensures found && !cut && st.calls == [[3, 4]]
  {
    var ak: seq<seq<nat>>, sids: seq<nat> := [[1], [0]], [3, 4];
    var st0 := Snapshot(map[3 := false, 4 := false], map[3 := [], 4 := []], []);
    var hits: seq<bool>, cuts: seq<bool>, sts: seq<Snapshot> :| CycleTrace(ak, sids, 5, [], 0, found, cut, st0, st, hits, cuts, sts);
    assert [] + [sids[0]] == [3];
    assert VisitRuns(ak, sids, 5, [3], 1, hits[0], cuts[0], sts[0], sts[1]);
    assert 4 in sts[0].flags && !sts[0].flags[4] && sts[0].calls == [];
    TwoCycleDescent(hits[0], cuts[0], sts[0], sts[1]);
    OneTurn(hits);
    OneTurn(cuts);
  }

  /** The descent of `TwoCycleRound` into local vertex 1 on the stack `[3]`. */
  lemma TwoCycleDescent(found: bool, cut: bool, st0: Snapshot, st: Snapshot)
    requires CycleRuns([[1], [0]], [3, 4], 5, [3], 1, found, cut, st0, st) && st0.calls == []
    ensures found && !cut && st.calls == [[3, 4]]
  {
    var ak: seq<seq<nat>>, sids: seq<nat> := [[1], [0]], [3, 4];
    var hits: seq<bool>, cuts: seq<bool>, sts: seq<Snapshot> :| CycleTrace(ak, sids, 5, [3], 1, found, cut, st0, st, hits, cuts, sts);
    assert [3] + [sids[1]] == [3, 4];
    assert VisitRuns(ak, sids, 5, [3, 4], 0, hits[0], cuts[0], sts[0], sts[1]);
    OneTurn(hits);
    OneTurn(cuts);
    assert sts[1].calls == [] + [[3, 4]];
  }

  /**
    The search on the single vertex 7 with a loop, beside a vertex 100 of
    another component: the loop writes `[7]`, and vertex 100 keeps its flag
    and its list.
  */
  lemma SelfLoopRound(found: bool, cut: bool, st: Snapshot)
    requires CycleRuns([[0]], [7], 5, [], 0, found, cut,
                       Snapshot(map[7 := false, 100 := false], map[7 := [], 100 := []], []), st)
    ensures found && !cut && st.calls == [[7]]
    ensures 100 in st.flags && !st.flags[100] && st.lists[100] == []
  {
    var ak: seq<seq<nat>>, sids: seq<nat> := [[0]], [7];
    var st0 := Snapshot(map[7 := false, 100 := false], map[7 := [], 100 := []], []);
    var hits: seq<bool>, cuts: seq<bool>, sts: seq<Snapshot> :| CycleTrace(ak, sids, 5, [], 0, found, cut, st0, st, hits, cuts, sts);
    assert [] + [sids[0]] == [7];
    assert VisitRuns(ak, sids, 5, [7], 0, hits[0], cuts[0], sts[0], sts[1]);
    OneTurn(hits);
    OneTurn(cuts);
    assert 100 in sts[1].flags && !sts[1].flags[100] && sts[1].lists[100] == [];
    UnblockSpares(sts[1].flags, sts[1].lists, st.flags, st.lists, 7, 100);
  }

  /**
    `cycle(2)` on the stack `[7, 8]` whose only successor, local vertex 1
    (global 8), is blocked: nothing is found or cut or written, 9 stays
    blocked and is registered in the list of 8.
  */
  lemma BlockedSuccessor(found: bool, cut: bool, st: Snapshot)
    requires CycleRuns([[1], [2], [1]], [7, 8, 9], 5, [7, 8], 2, found, cut,
                       Snapshot(map[7 := true, 8 := true, 9 := false], map[7 := [], 8 := [], 9 := []], []), st)
    ensures !found && !cut && st.calls == []
    ensures 9 in st.flags && st.flags[9] && 8 in st.lists && st.lists[8] == [9]
  {
    var ak: seq<seq<nat>>, sids: seq<nat> := [[1], [2], [1]], [7, 8, 9];
    var st0 := Snapshot(map[7 := true, 8 := true, 9 := false], map[7 := [], 8 := [], 9 := []], []);
    var hits: seq<bool>, cuts: seq<bool>, sts: seq<Snapshot> :| CycleTrace(ak, sids, 5, [7, 8], 2, found, cut, st0, st, hits, cuts, sts);
    assert [7, 8] + [sids[2]] == [7, 8, 9];
    assert VisitRuns(ak, sids, 5, [7, 8, 9], 1, hits[0], cuts[0], sts[0], sts[1]);
    assert sts[0].flags[8] && sts[1] == sts[0];
    OneTurn(hits);
    OneTurn(cuts);
    assert 9 in sts[1].flags && sts[1].flags[9] && 8 in sts[1].lists && sts[1].lists[8] == [];
    assert GlobalIds(sids, ak[2]) == [8];
    RegisterFresh(sts[1].lists, 9, 8);
  }

  /** Registering `x` with the one vertex `t`, whose list is empty, makes that list `[x]`. */
  lemma RegisterFresh(bl: map<nat, seq<nat>>, x: nat, t: nat)
    requires t in bl && bl[t] == []
    ensures RegisterAll(bl, x, [t])[t] == [x]
  {
    assert RegisterAll(bl, x, [t]) == RegisterOne(RegisterAll(bl, x, []), x, t);
  }

  /**
    The end of `cycle(u)`: after the loop over `u`'s successors, either
    something was found and `unblock(nu)` ran, or nothing was and `u` was
    registered with its successors.
  */
  lemma Finish(ak: seq<seq<nat>>, sids: seq<nat>, maxlength: int, stack: seq<nat>, u: nat, f: bool, cut: bool,
               b0: map<nat, bool>, B0: map<nat, seq<nat>>, calls0: seq<seq<nat>>,
               pushed: seq<nat>, succ: seq<nat>, j: nat, b1: map<nat, bool>,
               bl: map<nat, bool>, Bl: map<nat, seq<nat>>, calls: seq<seq<nat>>,
               b: map<nat, bool>, B: map<nat, seq<nat>>)
    requires u < |ak| && u < |sids| && sids[u] in b0
    requires pushed == stack + [sids[u]] && succ == ak[u] && j >= |succ| && b1 == b0[sids[u] := true]
    requires Scan(ak, sids, maxlength, pushed, succ, j, f, cut, calls0, calls, b1, bl, B0, Bl)
    requires Consistent(ak, sids, bl, Bl)
    requires f ==> UnblockDone(bl, Bl, b, B, sids[u])
    requires !f ==> b == bl && B == RegisterAll(Bl, sids[u], GlobalIds(sids, ak[u]))
    ensures CycleDone(ak, sids, maxlength, stack, u, f, cut, b0, B0, calls0, b, B, calls)
  {
    assert succ[..j] == succ;
    if |pushed| >= maxlength {
      CopiesAreRepeat(calls0, calls, pushed, Count(succ, 0));
    }
    if !f {
      FinishIdle(ak, sids, u, b0, B0, Bl, b, B);
    }
  }

  /** A log that extends `calls0` by `n` entries, each `c`, is `calls0` followed by `n` copies of `c`. */
  lemma CopiesAreRepeat(calls0: seq<seq<nat>>, calls: seq<seq<nat>>, c: seq<nat>, n: nat)
    requires |calls| == |calls0| + n && calls[..|calls0|] == calls0
    requires forall i :: |calls0| <= i < |calls| ==> calls[i] == c
    ensures calls == calls0 + Repeat(c, n)
  {
    assert forall i :: 0 <= i < |calls| ==> calls[i] == (calls0 + Repeat(c, n))[i];
  }

  /**
    Nothing found: from before the push, no flag was lowered and lists only
    grew, and `u`'s global id is in the list of each successor's.
  */
  lemma FinishIdle(ak: seq<seq<nat>>, sids: seq<nat>, u: nat, b0: map<nat, bool>, B0: map<nat, seq<nat>>,
                   Bl: map<nat, seq<nat>>, b: map<nat, bool>, B: map<nat, seq<nat>>)
    requires u < |ak| && u < |sids| && sids[u] in b0
    requires Consistent(ak, sids, b, Bl)
    requires OnlyBlocks(b0[sids[u] := true], b) && ListsGrow(B0, Bl)
    requires B == RegisterAll(Bl, sids[u], GlobalIds(sids, ak[u]))
    ensures OnlyBlocks(b0, b) && ListsGrow(B0, B)
    ensures forall m :: 0 <= m < |ak[u]| ==>
              ak[u][m] < |sids| && sids[ak[u][m]] in B && sids[u] in B[sids[ak[u][m]]]
  {
    var ids := GlobalIds(sids, ak[u]);
    RegisterAllGrows(Bl, sids[u], ids);
    OnlyBlocksTrans(b0, b0[sids[u] := true], b);
    ListsGrowTrans(B0, Bl, B);
    forall m | 0 <= m < |ak[u]| ensures sids[u] in B[sids[ak[u][m]]] {
      assert ids[m] == sids[ak[u][m]];
    }
  }

  /** The global ids of the local vertices `succ`. */
  function GlobalIds(sids: seq<nat>, succ: seq<nat>): (r: seq<nat>)
    requires forall m :: 0 <= m < |succ| ==> succ[m] < |sids|
    ensures |r| == |succ| && forall m :: 0 <= m < |succ| ==> r[m] == sids[succ[m]]
  {
    if succ == [] then [] else [sids[succ[0]]] + GlobalIds(sids, succ[1..])
  }

  /** `if not (x in B[t]): B[t].append(x)`. */
  function RegisterOne(bl: map<nat, seq<nat>>, x: nat, t: nat): (r: map<nat, seq<nat>>)
    requires t in bl
    ensures r.Keys == bl.Keys && x in r[t]
  {
    if x in bl[t] then bl else bl[t := bl[t] + [x]]
  }

  /** `RegisterOne` for every vertex of `ts`, in order. */
  function RegisterAll(bl: map<nat, seq<nat>>, x: nat, ts: seq<nat>): (r: map<nat, seq<nat>>)
    requires forall m :: 0 <= m < |ts| ==> ts[m] in bl
    ensures r.Keys == bl.Keys
    decreases |ts|
  {
    if ts == [] then bl else RegisterOne(RegisterAll(bl, x, ts[..|ts| - 1]), x, ts[|ts| - 1])
  }

  /** Registering one more vertex. */
  lemma RegisterAllSnoc(bl: map<nat, seq<nat>>, x: nat, ts: seq<nat>, k: nat)
    requires k < |ts| && forall m :: 0 <= m < |ts| ==> ts[m] in bl
    ensures RegisterAll(bl, x, ts[..k + 1]) == RegisterOne(RegisterAll(bl, x, ts[..k]), x, ts[k])
  {
    assert ts[..k + 1][..k] == ts[..k];
  }

  /**
    What registration does to every list: `x` is appended to the list of each
    vertex of `ts` that does not hold it yet, once, and every other list is
    untouched.
  */
  lemma {:induction false} RegisterAllPointwise(bl: map<nat, seq<nat>>, x: nat, ts: seq<nat>)
    requires forall m :: 0 <= m < |ts| ==> ts[m] in bl
    ensures var r := RegisterAll(bl, x, ts);
            forall k :: k in bl ==> r[k] == if k in ts && x !in bl[k] then bl[k] + [x] else bl[k]
    decreases |ts|
  {
    if ts != [] {
      var init, t := ts[..|ts| - 1], ts[|ts| - 1];
      RegisterAllPointwise(bl, x, init);
      var r0 := RegisterAll(bl, x, init);
      var r := RegisterAll(bl, x, ts);
      assert r == RegisterOne(r0, x, t);
      forall k | k in bl
        ensures r[k] == if k in ts && x !in bl[k] then bl[k] + [x] else bl[k]
      {
        InInitOrLast(ts, k);
      }
    }
  }

  /** So registration only grows the lists and leaves `x` in the list of every vertex of `ts`. */
  lemma RegisterAllGrows(bl: map<nat, seq<nat>>, x: nat, ts: seq<nat>)
    requires forall m :: 0 <= m < |ts| ==> ts[m] in bl
    ensures ListsGrow(bl, RegisterAll(bl, x, ts))
    ensures forall m :: 0 <= m < |ts| ==> x in RegisterAll(bl, x, ts)[ts[m]]
  {
    var r := RegisterAll(bl, x, ts);
    RegisterAllPointwise(bl, x, ts);
    forall k | k in bl ensures bl[k] <= r[k] {
      if k in ts && x !in bl[k] {
        assert r[k] == bl[k] + [x];
      }
    }
    forall m | 0 <= m < |ts| ensures x in r[ts[m]] {
      assert ts[m] in ts;
      if x !in bl[ts[m]] {
        assert r[ts[m]] == bl[ts[m]] + [x];
      }
    }
  }

  /** Registering a vertex that has a flag keeps the bookkeeping. */
  lemma RegisterAllKeeps(b: map<nat, bool>, bl: map<nat, seq<nat>>, x: nat, ts: seq<nat>)
    requires forall m :: 0 <= m < |ts| ==> ts[m] in bl
    requires Bookkeeping(b, bl) && x in b
    ensures Bookkeeping(b, RegisterAll(bl, x, ts))
  {
    var r := RegisterAll(bl, x, ts);
    RegisterAllPointwise(bl, x, ts);
    forall k | k in r ensures NoDup(r[k]) && forall w :: w in r[k] ==> w in b {
      if k in ts && x !in bl[k] {
        AppendNoDup(bl[k], x);
        assert r[k] == bl[k] + [x];
      } else {
        assert r[k] == bl[k];
      }
    }
  }

  /**
    The registration loop of `cycle(u)` on the lists `bl`: for each
    successor `v` in `succ`, `x` is appended to the list of `sids[v]`
    unless it is there already.
  */
  method RegisterIn(bl: map<nat, seq<nat>>, x: nat, sids: seq<nat>, succ: seq<nat>) returns (r: map<nat, seq<nat>>)
    requires forall m :: 0 <= m < |succ| ==> succ[m] < |sids| && sids[succ[m]] in bl
    ensures r == RegisterAll(bl, x, GlobalIds(sids, succ))
  {
    ghost var ids := GlobalIds(sids, succ);
    r := bl;
    var k := 0;
    while k < |succ|
      invariant k <= |succ|
      invariant r == RegisterAll(bl, x, ids[..k])
    {
      var nv := sids[succ[k]];
      RegisterAllSnoc(bl, x, ids, k);
      if x !in r[nv] {
        r := r[nv := r[nv] + [x]];
      }
      k := k + 1;
    }
    assert ids[..k] == ids;
  }

  /**
    `unblock(u)` on the flags `b` and the lists `bl`. The loop removes each
    visited entry from the very list it walks, so it visits the entries at
    positions 0, 2, 4, ... of `bl[u]` and leaves those at positions 1, 3,
    5, ... in place.
  */
  method UnblockIn(b: map<nat, bool>, bl: map<nat, seq<nat>>, u: nat) returns (b': map<nat, bool>, bl': map<nat, seq<nat>>)
    requires Bookkeeping(b, bl) && u in b
    decreases Blocked(b), if b[u] then 2 else 4
    ensures UnblockDone(b, bl, b', bl', u)
    ensures Bookkeeping(b', bl')
  {
    LoopStart(b, bl, u);
    b' := b[u := false];
    bl' := bl;
    var i := 0;
    ghost var order := [u];
    while i < |bl'[u]|
      invariant UnblockLoop(b, bl, b', bl', u, i, order)
      decreases |bl'[u]| - i
    {
      b', bl', order := UnblockStep(b, bl, b', bl', u, i, order);
      i := i + 1;
    }
    LoopEnd(b, bl, b', bl', u, i, order);
  }

  /**
    One pass of `unblock(u)`'s loop, begun from flags `b0` and lists `B0`:
    the entry `v` at the iterator's position `i` is removed from `bl[u]`
    and, when blocked, unblocked in turn. (The measure puts a pass between
    the call of `unblock` that runs it and the calls it makes.)
  */
  method UnblockStep(ghost b0: map<nat, bool>, ghost B0: map<nat, seq<nat>>,
                     b: map<nat, bool>, bl: map<nat, seq<nat>>, u: nat, i: nat, ghost order: seq<nat>)
    returns (b': map<nat, bool>, bl': map<nat, seq<nat>>, ghost order': seq<nat>)
    requires UnblockLoop(b0, B0, b, bl, u, i, order) && i < |bl[u]|
    decreases Blocked(b0), if b0[u] then 1 else 3
    ensures UnblockLoop(b0, B0, b', bl', u, i + 1, order')
  {
    var v := bl[u][i];
    LoopNext(b0, B0, b, bl, u, i, order);
    var cut := bl[u := RemoveFirst(bl[u], v)];
    b', bl', order' := b, cut, order;
    if b[v] {
      b', bl' := UnblockIn(b, cut, v);
      ghost var ov :| ReleaseOrder(b, cut, b', v, ov);
      LoopCascade(b0, B0, b, bl, b', bl', u, i, order, ov);
      order' := order + ov;
    } else {
      LoopSkip(b0, B0, b, bl, u, i, order);
    }
  }

  /**
    The bookkeeping every step relies on: `Ak` is indexed like `sids` and its
    lists name local vertices, every vertex of `Ak` has a flag, and the
    blocking lists hold no duplicates and name only vertices that have flags.
  */
  ghost predicate Consistent(ak: seq<seq<nat>>, sids: seq<nat>, b: map<nat, bool>, bl: map<nat, seq<nat>>) {
    && |ak| == |sids|
    && (forall i, m :: 0 <= i < |ak| && 0 <= m < |ak[i]| ==> ak[i][m] < |ak|)
    && (forall i :: 0 <= i < |sids| ==> sids[i] in b)
    && Bookkeeping(b, bl)
  }

  /**
    When `cycle(u)` returns false, `u`'s global id is in the list of each
    successor's, and under the bookkeeping it is there exactly once.
  */
  lemma RegisteredOnce(ak: seq<seq<nat>>, sids: seq<nat>, maxlength: int, stack: seq<nat>, u: nat, cut: bool,
                       b0: map<nat, bool>, B0: map<nat, seq<nat>>, calls0: seq<seq<nat>>,
                       b: map<nat, bool>, B: map<nat, seq<nat>>, calls: seq<seq<nat>>, m: nat)
    requires CycleDone(ak, sids, maxlength, stack, u, false, cut, b0, B0, calls0, b, B, calls)
    requires Consistent(ak, sids, b, B) && m < |ak[u]|
    ensures b[sids[u]] && Count(B[sids[ak[u][m]]], sids[u]) == 1
  {
    CountInNoDup(B[sids[ak[u][m]]], sids[u]);
  }

  /** Raising one flag of a vertex that has one keeps the bookkeeping. */
  lemma ConsistentBlock(ak: seq<seq<nat>>, sids: seq<nat>, b: map<nat, bool>, bl: map<nat, seq<nat>>, x: nat)
    requires Consistent(ak, sids, b, bl) && x in b
    ensures Consistent(ak, sids, b[x := true], bl)
  {
  }

  /**
    `path` is a walk from the root whose image is the stack, and the stack
    is no longer than `maxlength` unless it holds the root alone.
  */
  ghost predicate OnPath(ak: seq<seq<nat>>, sids: seq<nat>, maxlength: int, stack: seq<nat>, path: seq<nat>) {
    && IsWalk(ak, path) && path[0] == 0 && IsImage(sids, path, stack)
    && (|stack| <= maxlength || |stack| == 1)
  }

  /**
    The call `cycle(u)` is made on the path `stack`, whose local indices
    are `path`: the root call starts at local vertex 0 on an empty stack,
    and a nested call extends a walk from 0 by an edge to a vertex other
    than 0, below the depth limit.
  */
  ghost predicate CallableAt(ak: seq<seq<nat>>, sids: seq<nat>, maxlength: int, stack: seq<nat>,
                             path: seq<nat>, u: nat) {
    && u < |ak| && u < |sids|
    && IsImage(sids, path, stack)
    && ((path == [] && u == 0) ||
        (u != 0 && |stack| < maxlength && IsWalk(ak, path) && path[0] == 0 && u in ak[path[|path| - 1]]))
  }

  /** The flags after `blocked[v] = False` for each `v` of `cids` in turn. */
  function ResetFlags(b: map<nat, bool>, cids: seq<nat>): map<nat, bool> {
    if cids == [] then b else ResetFlags(b, cids[..|cids| - 1])[cids[|cids| - 1] := false]
  }

  /** The lists after `B[v] = []` for each `v` of `cids` in turn. */
  function ResetLists(bl: map<nat, seq<nat>>, cids: seq<nat>): map<nat, seq<nat>> {
    if cids == [] then bl else ResetLists(bl, cids[..|cids| - 1])[cids[|cids| - 1] := []]
  }

  /** Resetting gives the vertices of `cids` a lowered flag and keeps every other flag. */
  lemma {:induction false} ResetFlagsMeaning(b: map<nat, bool>, cids: seq<nat>)
    ensures forall x :: x in ResetFlags(b, cids) <==> x in b || x in cids
    ensures forall x :: x in cids ==> !ResetFlags(b, cids)[x]
    ensures forall x :: x in b && x !in cids ==> ResetFlags(b, cids)[x] == b[x]
  {
    if cids != [] {
      var init := cids[..|cids| - 1];
      ResetFlagsMeaning(b, init);
      assert cids == init + [cids[|cids| - 1]];
    }
  }

  /** Resetting gives the vertices of `cids` an empty list and keeps every other list. */
  lemma {:induction false} ResetListsMeaning(bl: map<nat, seq<nat>>, cids: seq<nat>)
    ensures forall x :: x in ResetLists(bl, cids) <==> x in bl || x in cids
    ensures forall x :: x in cids ==> ResetLists(bl, cids)[x] == []
    ensures forall x :: x in bl && x !in cids ==> ResetLists(bl, cids)[x] == bl[x]
  {
    if cids != [] {
      var init := cids[..|cids| - 1];
      ResetListsMeaning(bl, init);
      assert cids == init + [cids[|cids| - 1]];
    }
  }

  /**
    One round of the search from the reset flags `b0` and lists `B0`: the
    root call `cycle(0)` on the empty stack took them to `b`, `B` and the
    writes from `calls0` to `calls`, with whatever result it returned: it
    ran exactly as `CycleRuns` traces it, nested calls included, and so
    has the effect `CycleDone` summarises.
  */
  ghost predicate RoundDone(ak: seq<seq<nat>>, sids: seq<nat>, maxlength: int,
                            b0: map<nat, bool>, B0: map<nat, seq<nat>>, calls0: seq<seq<nat>>,
                            b: map<nat, bool>, B: map<nat, seq<nat>>, calls: seq<seq<nat>>) {
    exists found: bool, cut: bool ::
      && CycleDone(ak, sids, maxlength, [], 0, found, cut, b0, B0, calls0, b, B, calls)
      && CycleRuns(ak, sids, maxlength, [], 0, found, cut, Snapshot(b0, B0, calls0), Snapshot(b, B, calls))
  }

  /**
    A path the search reports, read in the whole graph `g`: a closed walk of
    `g` no longer than `maxlength` (unless it is the root alone), whose
    first vertex is the least of its vertices, and all of them are vertices of `g`.
  */
  ghost predicate Reported(g: Adapter, maxlength: int, c: seq<nat>) {
    && IsClosedWalk(g.edge, c)
    && (|c| <= maxlength || |c| == 1)
    && forall x :: x in c ==> c[0] <= x < g.vcount
  }

  /** From `before` to `after` paths were only appended, each one reported and rooted at `root`. */
  ghost predicate WritesFrom(g: Adapter, maxlength: int, root: nat, before: seq<seq<nat>>, after: seq<seq<nat>>) {
    && |before| <= |after| && after[..|before|] == before
    && forall i :: |before| <= i < |after| ==> Reported(g, maxlength, after[i]) && after[i][0] == root
  }

  /**
    The writes of `cycles()` so far, from `before` to `after`: paths were
    only appended, each is reported, their roots never decrease, and every
    root is below `s`.
  */
  ghost predicate RunLog(g: Adapter, maxlength: int, before: seq<seq<nat>>, after: seq<seq<nat>>, s: nat) {
    && |before| <= |after| && after[..|before|] == before
    && (forall i :: |before| <= i < |after| ==> Reported(g, maxlength, after[i]) && after[i][0] < s)
    && (forall i, j :: |before| <= i < j < |after| ==> after[i][0] <= after[j][0])
  }

  /**
    The writes of one `cycle(0)` on the component `cids`, closed walks of
    `g.subgraph(cids)` through its local vertex 0, are reported paths of `g`
    rooted at `cids[0]`.
  */
  lemma RootWrites(g: Adapter, maxlength: int, cids: seq<nat>, before: seq<seq<nat>>, after: seq<seq<nat>>)
    requires g.Shaped() && g.Induces() && StrictlyIncreasing(cids) && |cids| >= 1
    requires forall x :: x in cids ==> x < g.vcount
    requires WritesClosedWalks(before, after, g.subgraph(cids), cids, maxlength)
    ensures WritesFrom(g, maxlength, cids[0], before, after)
  {
    forall i | |before| <= i < |after|
      ensures Reported(g, maxlength, after[i]) && after[i][0] == cids[0]
    {
      var c := after[i];
      ClosedWalkInGraph(g, cids, c);
      ClosedWalkImageVertices(g.subgraph(cids), cids, c);
      forall x | x in c ensures c[0] <= x < g.vcount {
        var k :| 0 <= k < |cids| && cids[k] == x;
        assert k == 0 || cids[0] < cids[k];
      }
    }
  }

  /** A round rooted at `root >= s` extends the log, and the next root is above `root`. */
  lemma RunLogStep(g: Adapter, maxlength: int, C0: seq<seq<nat>>, calls: seq<seq<nat>>, calls': seq<seq<nat>>,
                   s: nat, root: nat)
    requires RunLog(g, maxlength, C0, calls, s) && s <= root
    requires WritesFrom(g, maxlength, root, calls, calls')
    ensures RunLog(g, maxlength, C0, calls', root + 1)
  {
    assert calls'[..|C0|] == calls[..|calls|][..|C0|];
    forall i | |C0| <= i < |calls'| ensures Reported(g, maxlength, calls'[i]) && calls'[i][0] < root + 1 {
      if i < |calls| {
        assert calls'[i] == calls[i];
      }
    }
    forall i, j | |C0| <= i < j < |calls'| ensures calls'[i][0] <= calls'[j][0] {
      if j < |calls| {
        assert calls'[i] == calls[i] && calls'[j] == calls[j];
      } else if i < |calls| {
        assert calls'[i] == calls[i];
      }
    }
  }

  /** Local vertices `i` and `j` of `adj` lie on a common cycle. */
  ghost predicate StronglyConnected(adj: seq<seq<nat>>, i: nat, j: nat) {
    Reaches(adj, i, j) && Reaches(adj, j, i)
  }

  /**
    When the scan finds only one-vertex components in the subgraph induced
    by `{s, ..., n-1}`, no two of its vertices lie on a common cycle.
  */
  lemma NothingLeft(g: Adapter, s: nat, membership: seq<nat>)
    requires g.Shaped() && g.LabelsStrongComponents()
    requires membership == g.components(g.subgraph(Range(s, g.vcount)))
    requires forall j :: 0 <= j < |membership| ==> Count(membership, membership[j]) <= 1
    ensures forall i, j :: 0 <= i < j < |g.subgraph(Range(s, g.vcount))| ==>
              !StronglyConnected(g.subgraph(Range(s, g.vcount)), i, j)
  {
    var sub := g.subgraph(Range(s, g.vcount));
    forall i, j | 0 <= i < j < |sub| ensures !StronglyConnected(sub, i, j) {
      if StronglyConnected(sub, i, j) {
        assert membership[i] == membership[j];
        CountOfRepeated(membership, i, j);
      }
    }
  }

  /** New flags and lists over the same vertices keep the bookkeeping when they keep it among themselves. */
  lemma ConsistentSameKeys(ak: seq<seq<nat>>, sids: seq<nat>, b0: map<nat, bool>, B0: map<nat, seq<nat>>,
                           b: map<nat, bool>, bl: map<nat, seq<nat>>)
    requires Consistent(ak, sids, b0, B0) && b.Keys == b0.Keys && Bookkeeping(b, bl)
    ensures Consistent(ak, sids, b, bl)
  {
  }

  class Cycles {
    /** The graph `g`, through the library calls the search makes on it. */
    const graph: Adapter
    /** The sink every closed path is written to. */
    const writer: Writer
    /** No path grows beyond this many vertices. */
    const maxlength: int
    /** `B`: for each vertex, the vertices to unblock when it is unblocked. */
    var B: map<nat, seq<nat>>
    /** `blocked`: the vertices the current search may not enter. */
    var blocked: map<nat, bool>
    /** `Ak`: the component being searched, as adjacency lists over local indices. */
    var ak: seq<seq<nat>>
    /** `sids`: the global id of each local vertex of `Ak`. */
    var sids: seq<nat>
    /** `stack`: the global ids on the path being explored. */
    var stack: seq<nat>
    /** `s`: the least vertex not yet used as a root. */
    var s: nat

    /** The bookkeeping every step relies on, over the current fields. */
    ghost predicate Valid()
      reads this`ak, this`sids, this`blocked, this`B
    {
      Consistent(ak, sids, blocked, B)
    }

    /** `Cycles(g, writer, maxlength)`. */
    constructor (graph: Adapter, writer: Writer, maxlength: int)
      ensures Valid()
      ensures this.graph == graph && this.writer == writer && this.maxlength == maxlength
      ensures B == map[] && blocked == map[] && ak == [] && sids == [] && stack == [] && s == 0
    {
      this.graph := graph;
      this.writer := writer;
      this.maxlength := maxlength;
      B, blocked := map[], map[];
      ak, sids, stack := [], [], [];
      s := 0;
    }

    /** `unblock(u)`, run on the flags and lists and stored back. */
    method Unblock(u: nat)
      requires Bookkeeping(blocked, B) && u in blocked
      modifies this`blocked, this`B
      ensures UnblockDone(old(blocked), old(B), blocked, B, u)
      ensures Bookkeeping(blocked, B)
    {
      blocked, B := UnblockIn(blocked, B, u);
    }

    /**
      The registration loop of `cycle(u)`, run on the lists and stored back:
      `nu` is appended to the list of every successor's global id that does
      not hold it yet.
    */
    method Register(nu: nat, succ: seq<nat>)
      requires Valid() && nu in blocked
      requires forall m :: 0 <= m < |succ| ==> succ[m] < |sids|
      modifies this`B
      ensures Valid()
      ensures B == RegisterAll(old(B), nu, GlobalIds(sids, succ))
    {
      B := RegisterIn(B, nu, sids, succ);
      RegisterAllKeeps(blocked, old(B), nu, GlobalIds(sids, succ));
    }

    /**
      `cycle(u)`: push `u`, write the stack for every edge back to the root,
      descend into unblocked successors below the depth limit, count an edge
      cut off by the limit as found, then unblock `u` when something was
      found or register `u` with its successors otherwise, and pop.
    */
    method Cycle(u: nat, ghost path: seq<nat>) returns (found: bool, ghost cut: bool, ghost st: Snapshot)
      requires Valid() && writer.Valid()
      requires CallableAt(ak, sids, maxlength, stack, path, u)
      modifies this`blocked, this`B, this`stack, writer
      decreases Room(maxlength, |stack| + 1), 4
      ensures Valid() && writer.Valid() && stack == old(stack)
      ensures st == Snapshot(blocked, B, writer.calls)
      ensures CycleDone(ak, sids, maxlength, old(stack), u, found, cut,
                        old(blocked), old(B), old(writer.calls), st.flags, st.lists, st.calls)
      ensures CycleRuns(ak, sids, maxlength, old(stack), u, found, cut,
                        Snapshot(old(blocked), old(B), old(writer.calls)), st)
    {
      ghost var S0, b0 := stack, blocked;
      Push(u, path);
      found, cut := Explore(u, path, S0, b0);
      st := Snapshot(blocked, B, writer.calls);
      ghost var a, ids := ak, sids;
      stack := stack[..|stack| - 1];
      assert ak == a && sids == ids && Snapshot(blocked, B, writer.calls) == st;
    }

    /**
      The rest of `cycle(u)` once `u` is pushed and blocked: the successors,
      then unblocking or registering `u`; the stack is left as it was.
    */
    method Explore(u: nat, ghost path: seq<nat>, ghost S0: seq<nat>, ghost b0: map<nat, bool>)
      returns (f: bool, ghost cut: bool)
      requires Valid() && writer.Valid() && u < |ak|
      requires OnPath(ak, sids, maxlength, stack, path + [u])
      requires sids[u] in b0 && stack == S0 + [sids[u]] && blocked == b0[sids[u] := true]
      modifies this`blocked, this`B, this`stack, writer
      decreases Room(maxlength, |stack|), 3
      ensures Valid() && writer.Valid() && stack == old(stack)
      ensures CycleDone(ak, sids, maxlength, S0, u, f, cut, b0, old(B), old(writer.calls), blocked, B, writer.calls)
      ensures CycleRuns(ak, sids, maxlength, S0, u, f, cut,
                        Snapshot(b0, old(B), old(writer.calls)), Snapshot(blocked, B, writer.calls))
    {
      ghost var hits, cuts, sts;
      f, cut, hits, cuts, sts := Successors(ak[u], path + [u]);
      Close(u, f, cut, S0, b0, old(B), old(writer.calls), hits, cuts, sts);
    }

    /**
      The end of `cycle(u)` once the loop over its successors is done:
      unblock or register `u` (`Settle`), which completes the call begun
      from flags `b0`, lists `B0` and writes `calls0` on the stack `S0`.
    */
    method Close(u: nat, f: bool, ghost cut: bool, ghost S0: seq<nat>, ghost b0: map<nat, bool>,
                 ghost B0: map<nat, seq<nat>>, ghost calls0: seq<seq<nat>>,
                 ghost hits: seq<bool>, ghost cuts: seq<bool>, ghost sts: seq<Snapshot>)
      requires Valid() && u < |ak| && sids[u] in b0 && stack == S0 + [sids[u]]
      requires Scan(ak, sids, maxlength, stack, ak[u], |ak[u]|, f, cut,
                    calls0, writer.calls, b0[sids[u] := true], blocked, B0, B)
      requires LoopRuns(ak, sids, maxlength, stack, ak[u], |ak[u]|, hits, cuts, sts)
      requires sts[0] == Snapshot(b0[sids[u] := true], B0, calls0)
      requires sts[|ak[u]|] == Snapshot(blocked, B, writer.calls)
      requires f == (true in hits) && cut == (true in cuts)
      modifies this`blocked, this`B
      ensures Valid()
      ensures CycleDone(ak, sids, maxlength, S0, u, f, cut, b0, B0, calls0, blocked, B, writer.calls)
      ensures CycleRuns(ak, sids, maxlength, S0, u, f, cut, Snapshot(b0, B0, calls0), Snapshot(blocked, B, writer.calls))
    {
      ghost var bl, Bl := blocked, B;
      Settle(u, f);
      Finish(ak, sids, maxlength, S0, u, f, cut, b0, B0, calls0, stack, ak[u], |ak[u]|, b0[sids[u] := true],
             bl, Bl, writer.calls, blocked, B);
      CycleRunsFrom(ak, sids, maxlength, S0, u, f, cut, Snapshot(b0, B0, calls0),
                    Snapshot(blocked, B, writer.calls), hits, cuts, sts);
    }

    /** The start of `cycle(u)`: `u`'s global id is pushed on the stack and blocked. */
    method Push(u: nat, ghost path: seq<nat>)
      requires Valid() && CallableAt(ak, sids, maxlength, stack, path, u)
      modifies this`blocked, this`stack
      ensures Valid() && OnPath(ak, sids, maxlength, stack, path + [u])
      ensures stack == old(stack) + [sids[u]] && blocked == old(blocked)[sids[u] := true]
    {
      PushedPath(ak, sids, maxlength, path, stack, u);
      ConsistentBlock(ak, sids, blocked, B, sids[u]);
      stack := stack + [sids[u]];
      blocked := blocked[sids[u] := true];
    }

    /**
      The loop of `cycle`: every successor in `succ` of the vertex on top of
      the stack, which `path` reaches from the root, in order.
    */
    method Successors(succ: seq<nat>, ghost path: seq<nat>)
      returns (f: bool, ghost cut: bool, ghost hits: seq<bool>, ghost cuts: seq<bool>, ghost sts: seq<Snapshot>)
      requires Valid() && writer.Valid()
      requires OnPath(ak, sids, maxlength, stack, path) && succ == ak[path[|path| - 1]]
      modifies this`blocked, this`B, this`stack, writer
      decreases Room(maxlength, |stack|), 2
      ensures Valid() && writer.Valid() && stack == old(stack)
      ensures Scan(ak, sids, maxlength, stack, succ, |succ|, f, cut,
                   old(writer.calls), writer.calls, old(blocked), blocked, old(B), B)
      ensures LoopRuns(ak, sids, maxlength, stack, succ, |succ|, hits, cuts, sts)
      ensures sts[0] == Snapshot(old(blocked), old(B), old(writer.calls))
      ensures sts[|succ|] == Snapshot(blocked, B, writer.calls)
      ensures f == (true in hits) && cut == (true in cuts)
    {
      ghost var S, calls0, b1, B1 := stack, writer.calls, blocked, B;
      ScanStart(ak, sids, maxlength, S, succ, calls0, b1, B1);
      f, cut := false, false;
      hits, cuts, sts := [], [], [Snapshot(b1, B1, calls0)];
      var j := 0;
      while j < |succ|
        invariant stack == S && Scan(ak, sids, maxlength, stack, succ, j, f, cut, calls0, writer.calls, b1, blocked, B1, B)
        invariant Valid() && writer.Valid()
        invariant LoopRuns(ak, sids, maxlength, stack, succ, j, hits, cuts, sts)
        invariant sts[0] == Snapshot(b1, B1, calls0)
        invariant sts[j] == Snapshot(blocked, B, writer.calls)
        invariant f == (true in hits) && cut == (true in cuts)
      {
        f, cut, hits, cuts, sts := Step(succ, j, path, f, cut, calls0, b1, B1, hits, cuts, sts);
        j := j + 1;
      }
    }

    /** One turn of the loop of `cycle`: look at `succ[j]` and record a hit in `f`. */
    method Step(succ: seq<nat>, j: nat, ghost path: seq<nat>, f: bool, ghost cut: bool,
                ghost calls0: seq<seq<nat>>, ghost b1: map<nat, bool>, ghost B1: map<nat, seq<nat>>,
                ghost hits: seq<bool>, ghost cuts: seq<bool>, ghost sts: seq<Snapshot>)
      returns (f': bool, ghost cut': bool, ghost hits': seq<bool>, ghost cuts': seq<bool>, ghost sts': seq<Snapshot>)
      requires Valid() && writer.Valid()
      requires OnPath(ak, sids, maxlength, stack, path) && succ == ak[path[|path| - 1]] && j < |succ|
      requires Scan(ak, sids, maxlength, stack, succ, j, f, cut, calls0, writer.calls, b1, blocked, B1, B)
      requires LoopRuns(ak, sids, maxlength, stack, succ, j, hits, cuts, sts)
      requires sts[0] == Snapshot(b1, B1, calls0) && sts[j] == Snapshot(blocked, B, writer.calls)
      requires f == (true in hits) && cut == (true in cuts)
      modifies this`blocked, this`B, this`stack, writer
      decreases Room(maxlength, |stack|), 1
      ensures Valid() && writer.Valid() && stack == old(stack)
      ensures Scan(ak, sids, maxlength, stack, succ, j + 1, f', cut', calls0, writer.calls, b1, blocked, B1, B)
      ensures LoopRuns(ak, sids, maxlength, stack, succ, j + 1, hits', cuts', sts')
      ensures sts' == sts + [Snapshot(blocked, B, writer.calls)] && sts'[0] == Snapshot(b1, B1, calls0)
      ensures f' == (true in hits') && cut' == (true in cuts')
    {
      ghost var calls, bb, BB := writer.calls, blocked, B;
      var hit;
      ghost var vcut;
      hit, vcut := Visit(succ[j], path);
      f' := f;
      if hit {
        f' := true;
      }
      cut' := cut || vcut;
      ScanVisit(ak, sids, maxlength, stack, succ, j, f, cut, calls0, calls, b1, bb, B1, BB,
                hit, vcut, writer.calls, blocked, B, f', cut');
      hits', cuts', sts' := hits + [hit], cuts + [vcut], sts + [Snapshot(blocked, B, writer.calls)];
      LoopRunsMore(ak, sids, maxlength, stack, succ, j, hits, cuts, sts, hit, vcut, Snapshot(blocked, B, writer.calls));
    }

    /**
      The end of `cycle`: unblock `nu` when something was found, otherwise
      enter `nu` in the list of each successor's global id.
    */
    method Settle(u: nat, f: bool)
      requires Valid() && u < |ak|
      modifies this`blocked, this`B
      ensures Valid()
      ensures f ==> UnblockDone(old(blocked), old(B), blocked, B, sids[u])
      ensures !f ==> blocked == old(blocked) && B == RegisterAll(old(B), sids[u], GlobalIds(sids, ak[u]))
      ensures Settles(sids[u], GlobalIds(sids, ak[u]), f, Snapshot(old(blocked), old(B), writer.calls),
                      Snapshot(blocked, B, writer.calls))
    {
      if f {
        ghost var b0, B0 := blocked, B;
        Unblock(sids[u]);
        ConsistentSameKeys(ak, sids, b0, B0, blocked, B);
      } else {
        Register(sids[u], ak[u]);
      }
    }

    /**
      One pass of `cycle`'s loop: the successor `v` of the vertex on top of
      the stack, which `path` reaches from the root.
    */
    method Visit(v: nat, ghost path: seq<nat>) returns (hit: bool, ghost cut: bool)
      requires Valid() && writer.Valid()
      requires OnPath(ak, sids, maxlength, stack, path) && v < |ak| && v in ak[path[|path| - 1]]
      modifies this`blocked, this`B, this`stack, writer
      decreases Room(maxlength, |stack|), 0
      ensures Valid() && writer.Valid() && stack == old(stack)
      ensures VisitDone(ak, sids, maxlength, stack, v, hit, cut,
                        old(blocked), old(B), old(writer.calls), blocked, B, writer.calls)
      ensures VisitRuns(ak, sids, maxlength, stack, v, hit, cut,
                        Snapshot(old(blocked), old(B), old(writer.calls)), Snapshot(blocked, B, writer.calls))
    {
      var nv := sids[v];
      if v == 0 {
        VisitWrite(ak, sids, maxlength, path, stack, blocked, B, writer.calls);
        writer.Write(stack);
        hit, cut := true, false;
      } else if |stack| < maxlength {
        if !blocked[nv] {
          ghost var st;
          hit, cut, st := Cycle(v, path);
          VisitDescend(ak, sids, maxlength, stack, v, hit, cut, old(blocked), old(B), old(writer.calls),
                       blocked, B, writer.calls);
        } else {
          VisitPass(ak, sids, maxlength, stack, v, blocked, B, writer.calls);
          hit, cut := false, false;
        }
      } else {
        VisitCut(ak, sids, maxlength, stack, v, blocked, B, writer.calls);
        hit, cut := true, true;
      }
    }

    /** `for i in cids: self.blocked[i] = False; self.B[i] = []`. */
    method ResetBlocking(cids: seq<nat>)
      requires Bookkeeping(blocked, B)
      modifies this`blocked, this`B
      ensures Bookkeeping(blocked, B)
      ensures forall x :: x in blocked <==> x in old(blocked) || x in cids
      ensures forall x :: x in cids ==> !blocked[x] && B[x] == []
      ensures forall x :: x in old(blocked) && x !in cids ==> blocked[x] == old(blocked)[x] && B[x] == old(B)[x]
      ensures blocked == ResetFlags(old(blocked), cids) && B == ResetLists(old(B), cids)
    {
      for k := 0 to |cids|
        invariant Bookkeeping(blocked, B)
        invariant blocked == ResetFlags(old(blocked), cids[..k]) && B == ResetLists(old(B), cids[..k])
      {
        assert cids[..k + 1][..k] == cids[..k];
        blocked := blocked[cids[k] := false];
        B := B[cids[k] := []];
      }
      assert cids[..|cids|] == cids;
      ResetFlagsMeaning(old(blocked), cids);
      ResetListsMeaning(old(B), cids);
    }

    /**
      One round of `cycles()` on the component `cids` found at `s`: root the
      search at `cids[0]`, take `cids` as the local vertices and the subgraph
      they induce as `Ak`, reset their blocking, run `cycle(0)`, and move `s`
      past the root.
    */
    method Restart(cids: seq<nat>)
      requires Valid() && writer.Valid() && stack == [] && graph.Shaped() && graph.Induces()
      requires |cids| >= 1 && StrictlyIncreasing(cids) && forall x :: x in cids ==> x < graph.vcount
      modifies this`s, this`sids, this`ak, this`blocked, this`B, this`stack, writer
      ensures Valid() && writer.Valid() && stack == [] && s == cids[0] + 1
      ensures WritesFrom(graph, maxlength, cids[0], old(writer.calls), writer.calls)
      ensures sids == cids && ak == graph.subgraph(cids)
      ensures RoundDone(ak, sids, maxlength, ResetFlags(old(blocked), cids), ResetLists(old(B), cids),
                        old(writer.calls), blocked, B, writer.calls)
    {
      s := cids[0];
      sids := cids;
      ak := graph.subgraph(cids);
      SubgraphBounded(graph, cids);
      ResetBlocking(cids);
      ghost var calls0, b0, B0, S0 := writer.calls, blocked, B, stack;
      var found;
      ghost var cut;
      ghost var st;
      found, cut, st := Cycle(0, []);
      assert RoundDone(ak, sids, maxlength, b0, B0, calls0, blocked, B, writer.calls);
      RootWrites(graph, maxlength, cids, calls0, writer.calls);
      s := s + 1;
    }

    /**
      `cycles()`: restart the search at the least vertex of the first
      component with more than one vertex in the subgraph induced by
      `{s, ..., n-1}`, until there is none.
    */
    method Run()
      requires Valid() && writer.Valid() && stack == [] && graph.WellFormed()
      modifies this`s, this`sids, this`ak, this`blocked, this`B, this`stack, writer
      ensures Valid() && writer.Valid() && stack == [] && old(s) <= s
      ensures RunLog(graph, maxlength, old(writer.calls), writer.calls, s)
      ensures forall i, j :: 0 <= i < j < |graph.subgraph(Range(s, graph.vcount))| ==>
                !StronglyConnected(graph.subgraph(Range(s, graph.vcount)), i, j)
    {
      ghost var C0 := writer.calls;
      while true
        invariant Valid() && writer.Valid() && stack == [] && old(s) <= s
        invariant RunLog(graph, maxlength, C0, writer.calls, s)
        decreases graph.vcount - s
      {
        var sub := graph.subgraph(Range(s, graph.vcount));
        var membership := graph.components(sub);
        var cids := LeastSccVertices(membership, s);
        if cids.None? {
          NothingLeft(graph, s, membership);
          break;
        }
        ghost var calls, s0 := writer.calls, s;
        Restart(cids.value);
        RunLogStep(graph, maxlength, C0, calls, writer.calls, s0, cids.value[0]);
      }
    }
  }
}

=== FILE: seqs.dfy ===
/**
  Sequence helpers for the Python list operations the cycle search uses:
  `list.count`, `list.remove`, duplicate-freedom of the blocking lists, and
  the positions a `for` loop visits when it removes from the list it walks.
*/
module Seqs {

  /** No element occurs twice: the last one is new, and so on down the list. */
  ghost predicate NoDup<T>(s: seq<T>)
    decreases |s|
  {
    s == [] || (s[|s| - 1] !in s[..|s| - 1] && NoDup(s[..|s| - 1]))
  }

  /** The pairwise reading of `NoDup`: different positions hold different elements. */
  lemma {:induction false} NoDupPairs<T>(s: seq<T>)
    ensures NoDup(s) <==> forall i, j :: 0 <= i < j < |s| ==> s[i] != s[j]
    decreases |s|
  {
    if s != [] {
      var init := s[..|s| - 1];
      NoDupPairs(init);
      if NoDup(s) {
        forall i, j | 0 <= i < j < |s| ensures s[i] != s[j] {
          if j == |s| - 1 {
            assert s[i] == init[i];
          } else {
            assert s[i] == init[i] && s[j] == init[j];
          }
        }
      }
      if forall i, j :: 0 <= i < j < |s| ==> s[i] != s[j] {
        assert forall i, j :: 0 <= i < j < |init| ==> init[i] != init[j] by {
          forall i, j | 0 <= i < j < |init| ensures init[i] != init[j] {
            assert init[i] == s[i] && init[j] == s[j];
          }
        }
        forall k | 0 <= k < |init| ensures init[k] != s[|s| - 1] {
          assert init[k] == s[k];
        }
      }
    }
  }

  /** Every element is smaller than every later one. */
  ghost predicate StrictlyIncreasing(s: seq<nat>) {
    forall i, j :: 0 <= i < j < |s| ==> s[i] < s[j]
  }

  /** Appending a new element keeps a list duplicate-free. */
  lemma AppendNoDup<T>(s: seq<T>, x: T)
    requires NoDup(s) && x !in s
    ensures NoDup(s + [x])
  {
    assert (s + [x])[..|s|] == s;
  }

  /** Python's `s.count(x)`: the number of occurrences of `x` in `s`. */
  function Count<T(==)>(s: seq<T>, x: T): (n: nat)
    ensures n <= |s|
    ensures n == 0 <==> x !in s
  {
    if s == [] then 0
    else
      assert s == s[..|s| - 1] + [s[|s| - 1]];
      Count(s[..|s| - 1], x) + (if s[|s| - 1] == x then 1 else 0)
  }

  /** In a duplicate-free sequence an element that occurs, occurs exactly once. */
  lemma {:induction false} CountInNoDup<T>(s: seq<T>, x: T)
    requires NoDup(s) && x in s
    ensures Count(s, x) == 1
  {
    var init := s[..|s| - 1];
    assert s == init + [s[|s| - 1]];
    if s[|s| - 1] != x {
      assert x in init;
      CountInNoDup(init, x);
    }
  }

  /** Two distinct positions holding the same value make its count at least two. */
  lemma {:induction false} CountOfRepeated<T>(s: seq<T>, i: nat, j: nat)
    requires i < j < |s| && s[i] == s[j]
    ensures Count(s, s[i]) >= 2
  {
    var init := s[..|s| - 1];
    assert s == init + [s[|s| - 1]];
    if j == |s| - 1 {
      assert init[i] == s[i];
    } else {
      assert init[i] == s[i] && init[j] == s[j];
      CountOfRepeated(init, i, j);
    }
  }

  /** An element of a non-empty list is in all but its last position, or is the last. */
  lemma InInitOrLast<T>(s: seq<T>, x: T)
    requires |s| > 0
    ensures x in s <==> x in s[..|s| - 1] || x == s[|s| - 1]
  {
    if x in s && x != s[|s| - 1] {
      var i :| 0 <= i < |s| && s[i] == x;
      assert s[..|s| - 1][i] == x;
    }
  }

  /** Extending a prefix by one element. */
  lemma PrefixStep<T>(s: seq<T>, i: nat)
    requires i < |s|
    ensures s[..i + 1] == s[..i] + [s[i]]
  {
  }

  /** `n` copies of `x`, the way `n` successive writes of the same path log it. */
  function Repeat<T>(x: T, n: nat): (r: seq<T>)
    ensures |r| == n
    ensures forall k :: 0 <= k < n ==> r[k] == x
  {
    if n == 0 then [] else Repeat(x, n - 1) + [x]
  }

  /** The elements at positions 0, 2, 4, ... of `s`. */
  function EvenPositions<T>(s: seq<T>): (r: seq<T>)
    ensures |r| == (|s| + 1) / 2
    decreases |s|, 1
  {
    if s == [] then [] else [s[0]] + OddPositions(s[1..])
  }

  /** The elements at positions 1, 3, 5, ... of `s`. */
  function OddPositions<T>(s: seq<T>): (r: seq<T>)
    ensures |r| == |s| / 2
    decreases |s|, 0
  {
    if s == [] then [] else EvenPositions(s[1..])
  }

  /** Position `k` of the even (odd) selection is position `2k` (`2k + 1`) of `s`; neither selection invents an element. */
  lemma {:induction false} PositionsAt<T>(s: seq<T>)
    ensures forall k :: 0 <= k < |EvenPositions(s)| ==> EvenPositions(s)[k] == s[2 * k]
    ensures forall k :: 0 <= k < |OddPositions(s)| ==> OddPositions(s)[k] == s[2 * k + 1]
    ensures forall x :: x in EvenPositions(s) ==> x in s
    ensures forall x :: x in OddPositions(s) ==> x in s
    decreases |s|
  {
    if s != [] {
      PositionsAt(s[1..]);
      var e, o := EvenPositions(s), OddPositions(s);
      assert e == [s[0]] + OddPositions(s[1..]);
      forall k | 0 < k < |e| ensures e[k] == s[2 * k] {
        assert e[k] == OddPositions(s[1..])[k - 1];
      }
      forall x | x in e ensures x in s {
        if x != s[0] {
          assert x in OddPositions(s[1..]);
        }
      }
    }
  }

  /** Every element is at an even or an odd position, and at only one of them. */
  lemma {:induction false} EvenOddSplit<T>(s: seq<T>)
    ensures multiset(EvenPositions(s)) + multiset(OddPositions(s)) == multiset(s)
    decreases |s|
  {
    if s != [] {
      EvenOddSplit(s[1..]);
      assert s == [s[0]] + s[1..];
    }
  }

  /** Python's `s.remove(x)`: drop the first occurrence of `x` (a `ValueError` when `x` is absent). */
  function RemoveFirst<T(==)>(s: seq<T>, x: T): (r: seq<T>)
    requires x in s
    ensures |r| == |s| - 1
    ensures multiset(r) + multiset{x} == multiset(s)
    ensures forall y :: y in r ==> y in s
  {
    if s[0] == x then
      assert s == [s[0]] + s[1..];
      s[1..]
    else
      assert s == [s[0]] + s[1..];
      [s[0]] + RemoveFirst(s[1..], x)
  }

  /** Removing an element that occurs first at position `k` cuts out exactly position `k`. */
  lemma {:induction false} RemoveFirstAt<T>(s: seq<T>, k: nat)
    requires k < |s| && s[k] !in s[..k]
    ensures RemoveFirst(s, s[k]) == s[..k] + s[k + 1..]
  {
    if k > 0 {
      assert s[0] in s[..k];
      assert s[1..][k - 1] == s[k];
      assert s[1..][..k - 1] == s[1..k];
      assert forall x :: x in s[1..k] ==> x in s[..k];
      RemoveFirstAt(s[1..], k - 1);
      assert s[1..][k..] == s[k + 1..];
    }
  }

  /** Cutting one element out of a sequence without duplicates leaves none. */
  lemma NoDupCut<T>(s: seq<T>, k: nat)
    requires k < |s| && NoDup(s)
    ensures NoDup(s[..k] + s[k + 1..])
  {
    var next := s[..k] + s[k + 1..];
    NoDupPairs(s);
    NoDupPairs(next);
    forall a, c | 0 <= a < c < |next| ensures next[a] != next[c] {
      var a', c' := if a < k then a else a + 1, if c < k then c else c + 1;
      assert next[a] == s[a'] && next[c] == s[c'];
    }
  }

  /** In a sequence without duplicates no element occurs before its own position. */
  lemma NoDupAt<T>(s: seq<T>, k: nat)
    requires k < |s| && NoDup(s)
    ensures s[k] !in s[..k]
  {
    NoDupPairs(s);
  }
}

=== FILE: wrappers.dfy ===
/** The Option datatype standing for Python's `None`-or-value results. */
module Wrappers {
  datatype Option<+T> = None | Some(value: T)
}

=== FILE: writers.dfy ===
/**
  The in-memory sinks that receive every path the search writes out:
  `MemoryWriter` keeps a copy of every path, `FilteredMemoryWriter(l)` keeps
  only the paths of length exactly `l`. Both are one class here, `Writer`,
  whose constant `target` says which of the two it is.
*/
module Writers {
  import opened Wrappers

  /** Whether a sink with this target keeps path `c`. */
  predicate Accepts(target: Option<int>, c: seq<nat>) {
    target.None? || |c| == target.value
  }

  /** What a sink holds after receiving the paths `calls`, in call order. */
  function Kept(calls: seq<seq<nat>>, target: Option<int>): (r: seq<seq<nat>>)
    ensures |r| <= |calls|
  {
    if calls == [] then []
    else
      Kept(calls[..|calls| - 1], target)
      + (if Accepts(target, calls[|calls| - 1]) then [calls[|calls| - 1]] else [])
  }

  /** Receiving two batches in turn keeps the first batch's paths, then the second's. */
  lemma {:induction false} KeptAppend(a: seq<seq<nat>>, b: seq<seq<nat>>, target: Option<int>)
    ensures Kept(a + b, target) == Kept(a, target) + Kept(b, target)
    decreases |b|
  {
    if b == [] {
      assert a + b == a;
    } else {
      var init := b[..|b| - 1];
      assert (a + b)[..|a + b| - 1] == a + init;
      KeptAppend(a, init, target);
    }
  }

  /** A `MemoryWriter` keeps every path it is given, in order. */
  lemma {:induction false} MemoryWriterKeepsAll(calls: seq<seq<nat>>)
    ensures Kept(calls, None) == calls
  {
    if calls != [] {
      MemoryWriterKeepsAll(calls[..|calls| - 1]);
    }
  }

  /** A `FilteredMemoryWriter(l)` keeps exactly the paths of length `l`. */
  lemma {:induction false} FilteredWriterKeepsLength(calls: seq<seq<nat>>, l: int)
    ensures forall c :: c in Kept(calls, Some(l)) <==> c in calls && |c| == l
  {
    if calls != [] {
      var init := calls[..|calls| - 1];
      FilteredWriterKeepsLength(init, l);
      assert calls == init + [calls[|calls| - 1]];
    }
  }

  class Writer {
    /** `None` for a `MemoryWriter`, `Some(l)` for a `FilteredMemoryWriter(l)`. */
    const target: Option<int>
    /** The Python list `cycles`. */
    var cycles: seq<seq<nat>>
    /** Every path ever passed to `Write`, in call order. */
    ghost var calls: seq<seq<nat>>

    ghost predicate Valid()
      reads this
    {
      cycles == Kept(calls, target)
    }

    /** `MemoryWriter()`. */
    constructor Memory()
      ensures Valid() && target == None && cycles == [] && calls == []
    {
      target := None;
      cycles := [];
      calls := [];
    }

    /** `FilteredMemoryWriter(l)`. */
    constructor Filtered(l: int)
      ensures Valid() && target == Some(l) && cycles == [] && calls == []
    {
      target := Some(l);
      cycles := [];
      calls := [];
    }

    /** `write(c)`: append a copy of `c` when this sink accepts it. */
    method Write(c: seq<nat>)
      requires Valid()
      modifies this
      ensures Valid() && calls == old(calls) + [c]
      ensures cycles == if Accepts(target, c) then old(cycles) + [c] else old(cycles)
    {
      if Accepts(target, c) {
        cycles := cycles + [c];
      }
      calls := calls + [c];
      assert calls[..|calls| - 1] == old(calls);
    }
  }
}
